=== FILE: README.md ===
# Barcode lookup front end: a Dafny model

This project models the client side of a shopping lookup app, written in Next.js and React. The user scans a product barcode or types it in. The page sends the GTIN (Global Trade Item Number) to a product API and shows one card per store that answered. Four components are modelled:

- **The scanner** (`BarcodeScanner.tsx`). It covers manual entry and the live camera session: starting it, with the three-step `getUserMedia` fallback chain; the `scanFrame` decode loop; stopping; switching cameras; and pausing on a frozen frame. It also covers still-image decoding for uploads, including HEIC conversion and renaming, and for captured frames. Each handler is a pure function from a state to a `Step`, which holds the next state and the calls made on the outside world, in order. These calls include `onScan`, `clearTimeout`, track stops, reader resets, stream requests and decode calls. Counting them states "exactly once" and "never" properties.
- **The lookup page** (`app/page.tsx`). It covers `handleScan` and `handleRescan` and the conditions that choose between the spinner, the error alert with its retry button, the product cards and the "No products found" panel.
- **The JSON viewer** (`JsonViewer.tsx`). It is modelled as a serializer into display tokens: literals, keys, `: `, commas, brackets, and the indented children block. A parser reads the tokens back, and the rendering is proved to be well nested, correctly comma-separated and injective.
- **The product cards** (`ProductDetails.tsx`). This covers the valid-image filter, the main image and thumbnail selection, the five-category cap, the per-store promotion toggle, and the card list.

A React handler reads the state of the render that created it. That matters here. In the scanner model, a `Closure` value is the captured snapshot, passed separately from the live state. `Capture(s)` is the snapshot of the render that shows state `s`.

In several places the code does something other than what its comments or surrounding design suggest. The model follows the code:

- The `scanFrame` loop decides whether to reschedule itself from the `isScanning` and `isPaused` it captured. A loop started by the camera button was created while `isScanning` was still false, so it makes one decode attempt and stops (`StaleGuardStopsLoop`). Only a closure created while scanning keeps polling (`MissesThenHit`).
- Resuming after a pause builds a new `scanFrame` from a render in which `isPaused` is true, so it returns at once. Resuming never decodes again (`PauseThenResume`).
- The first two `getUserMedia` requests use the same constraints, so the "fallback" repeats itself before falling back to any camera (`FallbackChainShape`).
- The switch handler is memoised on the camera count, the index, `isScanning` and `stopScanning` only. The restart it schedules runs the `startScanning` it captured, which agrees with the current state on those three values but may be older in everything else (`SwitchMayHold`). The restart therefore asks for the camera that was current before the switch (`SwitchRestartAsksForPreviousCamera`). Because pausing does not renew the handler, a switch after a pause restarts a loop that still decodes and polls (`PausedSwitchRestartPolls`).
- A failed decode of a captured frame shows "No barcode detected in image.", because the decode helper always rethrows an `Error` with that message (`StillFailureMessage`).
- A HEIC conversion failure ends the upload handler without any message (`HeicUpload`).
- A successful decode of a frozen frame reports the code but leaves the session paused with its stream held (`CaptureDecoded`).
- `startScanning` overwrites a held stream reference without stopping its tracks (`StartGranted`: no track stop is issued).

Modules:

- `wrappers.dfy`: `Option` and `Result`.
- `seqs.dfy`: order-preserving filtering, shared by the image list and the camera list.
- `text.dfy`: ECMAScript `trim`, ASCII lower-casing, the `.heic` test and rename, and decimal digits.
- `json_viewer.dfy`: the JSON viewer.
- `product_types.dfy`: the product record and the response.
- `product_details.dfy`: the product cards.
- `home_page.dfy`: the lookup page.
- `barcode_scanner.dfy`: the scanner model.
- `barcode_scanner_proofs.dfy`: properties of the scanner model.

## Model

| member | source | states |
|---|---|---|
| Text.Trim | src/components/BarcodeScanner.tsx:33 | `trim()` leaves an infix of the input with only whitespace before and after it; the result is empty exactly when every character is ECMAScript whitespace, and otherwise neither starts nor ends with whitespace |
| Text.TrimIsTheStrippedInfix | src/components/BarcodeScanner.tsx:33 | any non-blank infix with only whitespace around it and none at its own ends is the trimmed input, so `trim()` removes exactly the whitespace at both ends and nothing else |
| Text.TrimIdempotent | src/components/BarcodeScanner.tsx:33-34 | trimming the trimmed input changes nothing, so the reported code is already in trimmed form |
| Text.HeicTestAgreesWithRename | src/components/BarcodeScanner.tsx:178-182 | the lower-cased `endsWith('.heic')` test and the case-insensitive `/\.heic$/i` rename accept exactly the same file names |
| Text.RenamedHeicIsJpeg | src/components/BarcodeScanner.tsx:182 | a converted upload keeps its stem with `.jpg` in place of the `.heic` extension, and the new name no longer passes the HEIC test |
| Text.DigitsRoundTrip | src/lib/api.ts:15 | the decimal text of the status in an `API error: <status>` message reads back as that number |
| Text.DecimalTextInjective | src/lib/api.ts:15 | different integers have different decimal texts, the step that keeps `API error: <status>` messages apart |
| JsonViewer.LiteralText | src/components/JsonViewer.tsx:11-14 | `null`, booleans and strings show as `null`, `true`/`false` and the string itself; an empty array or object shows only `[]` or `{}`, with no children block |
| JsonViewer.ArrayLayout | src/components/JsonViewer.tsx:16-32 | a non-empty array shows `[`, an indented block of its items separated by exactly `n - 1` commas with none after the last, then `]` |
| JsonViewer.ObjectLayout | src/components/JsonViewer.tsx:35-57 | a non-empty object shows `{`, one `key: value` row per key in key order with exactly `n - 1` separating commas, then `}` |
| JsonViewer.ItemSeparators | src/components/JsonViewer.tsx:22-26 | the array rows carry one comma fewer than there are items outside nested brackets, whatever the items contain |
| JsonViewer.MemberSeparators | src/components/JsonViewer.tsx:42-53 | the object rows carry one comma fewer than there are keys outside nested brackets |
| JsonViewer.RenderHidesCommas | src/components/JsonViewer.tsx:24 | a recursively rendered child adds no comma at its parent's level: all its own commas are inside its brackets |
| JsonViewer.RenderEndsWithoutComma | src/components/JsonViewer.tsx:25 | no rendering ends with a separator |
| JsonViewer.RenderWellNested | src/components/JsonViewer.tsx:19-56 | every opening bracket and children block of a rendering is closed by one of the same kind, innermost first |
| JsonViewer.RenderNests | src/components/JsonViewer.tsx:16-58 | running a bracket stack over a rendering returns the stack it started with |
| JsonViewer.ParseRender | src/components/JsonViewer.tsx:10-62 | reading the tokens of any rendering back gives the value rendered and leaves whatever followed untouched |
| JsonViewer.ParseRenderItems | src/components/JsonViewer.tsx:22-27 | the array rows read back as the item list, in order |
| JsonViewer.ParseRenderMembers | src/components/JsonViewer.tsx:42-53 | the object rows read back as the key/value list, in key order |
| JsonViewer.RenderInjective | src/components/JsonViewer.tsx:10-62 | two values with the same rendering are equal, so the viewer never shows different data alike |
| Seqs.Filter | src/components/ProductDetails.tsx:23 | the filter keeps exactly the accepted entries, each as many times as it occurs, and never grows the list |
| Seqs.FilterAppend | src/components/ProductDetails.tsx:23 | filtering distributes over concatenation, so the kept entries stay in their original order |
| ProductDetails.ValidImagesIdempotent | src/components/ProductDetails.tsx:22-24 | the valid images contain no invalid entry: filtering them again changes nothing |
| ProductDetails.ValidImages | src/components/ProductDetails.tsx:22-24 | an absent image list gives no valid images |
| ProductDetails.SelectedIndex | src/components/ProductDetails.tsx:76 | `selectedImage[store] \|\| 0`: a store nobody clicked shows image 0, a clicked store the recorded index |
| ProductDetails.ShowMainImage | src/components/ProductDetails.tsx:72-76 | there is no main image exactly when there are no valid images; otherwise the image at `selectedImage[store] \|\| 0` is shown, and an index past the list gives an image with no source |
| ProductDetails.SelectImage | src/components/ProductDetails.tsx:109 | a thumbnail click records the index for its store and leaves every other store's selection as it was |
| ProductDetails.ClickedThumbnailBecomesMain | src/components/ProductDetails.tsx:73-109 | after clicking thumbnail `i`, the store's main image is valid image `i` |
| ProductDetails.ShownCategories | src/components/ProductDetails.tsx:145-147 | at most five category badges, a prefix of the list of length min(5, n), none for an absent list |
| ProductDetails.PromoKeyInjective | src/components/ProductDetails.tsx:219 | distinct stores never share a `${store}-promo` key |
| ProductDetails.TogglePromotions | src/components/ProductDetails.tsx:219 | the chevron flips the store's panel between shown and hidden (an absent key counts as hidden) and keeps every other entry |
| ProductDetails.ToggleLeavesOtherStores | src/components/ProductDetails.tsx:219 | toggling one store's promotions never changes whether another store's are shown |
| ProductDetails.ToggleTwice | src/components/ProductDetails.tsx:219-226 | two toggles restore what every panel shows; the map itself comes back unchanged exactly when the key was already present |
| ProductDetails.PromotionPanel | src/components/ProductDetails.tsx:212-237 | no promotion section for an absent or empty list; when expanded, one entry per promotion in order, text as text and objects through the JSON viewer |
| ProductDetails.ShowPromotion | src/components/ProductDetails.tsx:228-233 | a text promotion shows as its text; any other goes through the JSON viewer, whose tokens are well nested and read back as exactly the promotion's data |
| ProductDetails.RenderCard | src/components/ProductDetails.tsx:41-153 | the title is the product's own store name when it is non-empty and the response key otherwise; the main image is the one `ShowMainImage` picks for the store's selection, absent exactly when no image is valid; the thumbnail strip is the whole valid list when more than one image is valid and absent otherwise; the highlighted thumbnail is the store's selected index; categories and promotions are the capped list and the panel of that product |
| ProductDetails.RenderProducts | src/components/ProductDetails.tsx:26-41 | an empty response shows the "No products found" card; otherwise card `i` is the card of the `i`-th store in response order, whose main image is the valid image the store's selection picks and which carries that product's own categories and promotion panel |
| HomePage.BeginScan | src/app/page.tsx:19-21 | a lookup starts loading, clears the error, records the GTIN and keeps the previous products |
| HomePage.FinishScan | src/app/page.tsx:23-31 | a settled lookup stops loading; success shows the response; failure clears the products and shows the error's message or the default text |
| HomePage.HandleScan | src/app/page.tsx:18-32 | after a lookup the page holds the scanned GTIN, is not loading, and shows the response with no error or an empty response with the failure message |
| HomePage.HandleRescan | src/app/page.tsx:34-38 | retry does nothing before the first scan and otherwise repeats the lookup for the last GTIN |
| HomePage.Visible | src/app/page.tsx:55-99 | the spinner shows exactly while loading; the alert exactly when the error is a non-empty string; retry exactly with the alert and a previous GTIN; the cards exactly for a non-empty response; "No products found" exactly when not loading, with no error message, an empty response and a previous GTIN, so never beside the cards |
| HomePage.ScanDependsOnlyOnGtinAndOutcome | src/app/page.tsx:18-32 | a completed lookup's page state depends only on the GTIN and the outcome, not on what was shown before |
| HomePage.RescanRepeatsLastScan | src/app/page.tsx:34-38 | retrying after a lookup that meets the same outcome reproduces the same page |
| HomePage.StaleProductsDuringLookup | src/app/page.tsx:19-25 | while a lookup is in flight the previous products stay on screen beside the spinner, with no error and no "No products found" |
| HomePage.OnePanelAfterLookup | src/app/page.tsx:62-99 | after a completed lookup exactly one of the error alert, the cards and "No products found" is shown; a rejection with an empty message shows "No products found" |
| HomePage.PanelForOutcome | src/app/page.tsx:23-99 | after a lookup, a non-empty response shows the cards, an empty response or a rejection with an empty message shows "No products found", and a rejection with a message shows the alert with retry |
| HomePage.ProductPanelHasCards | src/app/page.tsx:82-84 | the page mounts the cards only for a non-empty response, so their own empty-state card is unreachable from it |
| HomePage.InitialShowsNothing | src/app/page.tsx:13-16 | before the first lookup no panel is on screen, and retry does nothing |
| HomePage.StatusError | src/lib/api.ts:14-16 | a non-2xx status rejects with an `Error` whose message starts `API error: ` |
| HomePage.StatusErrorInjective | src/lib/api.ts:15 | different HTTP statuses give different error messages |
| HomePage.StatusErrorShowsAlert | src/app/page.tsx:26-79 | a rejected lookup for a non-2xx status shows its message in the alert together with the retry button |
| BarcodeScanner.HandleSubmit | src/components/BarcodeScanner.tsx:31-37 | a blank input does nothing; otherwise the trimmed, non-empty code is reported once and the field is cleared |
| BarcodeScannerProofs.SubmitAgreesWithSearchButton | src/components/BarcodeScanner.tsx:411 | whenever the search button is enabled a submit reports the trimmed input; a blank input both disables the button and makes submit a no-op |
| BarcodeScanner.StopScanning | src/components/BarcodeScanner.tsx:39-59 | stopping leaves no timer, no stream, no camera view, no pause, no frozen frame and no error; it only releases resources and keeps the input, the camera list and index, and the reader |
| BarcodeScannerProofs.StopCounts | src/components/BarcodeScanner.tsx:40-52 | the timeout is cleared, the tracks stopped and the reader reset exactly once each when held and never otherwise; nothing is decoded |
| BarcodeScannerProofs.StopIdempotent | src/components/BarcodeScanner.tsx:39-59 | a second stop changes nothing and only resets the reader again |
| BarcodeScanner.SwitchCamera | src/components/BarcodeScanner.tsx:71-81 | with at most one camera nothing happens; otherwise the index becomes `(index + 1) % n` (the next camera, wrapping from the last to the first) and the camera list is kept; a switch while scanning releases the session exactly as `stopScanning` does and then schedules the restart the handler holds, nothing else; otherwise only the index changes |
| BarcodeScannerProofs.SwitchAdvances | src/components/BarcodeScanner.tsx:72-74 | `k` switches (up to the number of cameras) move the index `k` places forward modulo the number of cameras, keeping the camera list |
| BarcodeScannerProofs.SwitchWraps | src/components/BarcodeScanner.tsx:72-74 | any number `k` of switches moves an in-range index to `(index + k) % n` and keeps the camera list |
| BarcodeScannerProofs.SwitchCycles | src/components/BarcodeScanner.tsx:72-74 | as many switches as there are cameras bring the index back to the start |
| BarcodeScannerProofs.SwitchRestartAsksForPreviousCamera | src/components/BarcodeScanner.tsx:75-81 | for any restart the memoised handler can hold, a switch while scanning schedules exactly one restart, and that restart requests the device at the index that was current before the switch |
| BarcodeScannerProofs.PausedSwitchRestartPolls | src/components/BarcodeScanner.tsx:70-81 | after a pause, the handler may still hold a `startScanning` that is not paused (`isPaused` is not a dependency); a switch then restarts a loop that decodes and schedules the next frame after a miss, whereas the paused render's `startScanning` would never decode |
| BarcodeScanner.Acquire | src/components/BarcodeScanner.tsx:94-115 | requests follow the chain in order and stop at the first granted one, so a granted request ends the list after 1, 2 or 3 requests and a refusal makes all three; the session gets a stream exactly when some request is granted |
| BarcodeScanner.Preferred | src/components/BarcodeScanner.tsx:91-99 | the first two requests ask for the exact captured device when the captured list has a camera at the captured index, and for the rear camera otherwise |
| BarcodeScanner.Chain | src/components/BarcodeScanner.tsx:95-112 | the chain is the preferred constraint twice and then any video input |
| BarcodeScannerProofs.FallbackChainShape | src/components/BarcodeScanner.tsx:92-113 | the first two requests are identical: the exact captured camera if there is one at the captured index, the rear camera otherwise; the third asks for any camera |
| BarcodeScanner.VideoInputs | src/components/BarcodeScanner.tsx:63-65 | the camera list holds exactly the enumerated video inputs |
| BarcodeScannerProofs.VideoInputsKeepOrder | src/components/BarcodeScanner.tsx:63-65 | the video inputs of two lists in a row are those of the first followed by those of the second, so the cycling order of `switchCamera` is the enumeration order |
| BarcodeScanner.StartScanning | src/components/BarcodeScanner.tsx:83-158 | devices are enumerated first, then exactly the requests of the fallback chain up to the first granted one are made; a granted stream with a mounted video ends by installing the metadata handler, and otherwise nothing follows the requests; with a grant and a mounted video the effects are exactly the enumeration, the requests and the metadata wait; the camera list is replaced only when enumeration succeeds, and only the camera list, the error, the camera view and the stream flag can change; a grant holds the stream and shows the camera view, while a refusal of all three shows the permission message and hides the camera view |
| BarcodeScannerProofs.StartDenied | src/components/BarcodeScanner.tsx:102-158 | when every request fails all three are made and the permission message replaces the camera view |
| BarcodeScannerProofs.StartGranted | src/components/BarcodeScanner.tsx:117-124 | a granted request installs the metadata handler exactly once when the video is mounted and stops no previously held tracks |
| BarcodeScanner.ScanFrame | src/components/BarcodeScanner.tsx:132-149 | a frame is decoded exactly when the video and reader exist and the captured flags say not paused; otherwise nothing happens |
| BarcodeScannerProofs.ScanFrameHit | src/components/BarcodeScanner.tsx:137-140 | a live hit reports its text and then tears the session down, stopping a held stream once |
| BarcodeScannerProofs.ScanFrameMiss | src/components/BarcodeScanner.tsx:142-148 | a miss or decoder exception is swallowed, and the next frame is scheduled exactly when the captured flags say scanning and not paused |
| BarcodeScannerProofs.StaleGuardStopsLoop | src/components/BarcodeScanner.tsx:146-148 | a loop whose closure was captured before scanning began makes at most one decode attempt |
| BarcodeScannerProofs.MissesThenHit | src/components/BarcodeScanner.tsx:132-152 | a running loop meeting `n` misses and then a hit makes `n + 1` decode attempts, reports only the hit's text and only once, stops a held stream exactly once and ends torn down |
| BarcodeScannerProofs.LoopBounds | src/components/BarcodeScanner.tsx:132-147 | whatever the decoder answers, a `scanFrame` chain makes at most one decode attempt per answer and reports at most one code |
| BarcodeScanner.MetadataLoaded | src/components/BarcodeScanner.tsx:124-152 | the metadata handler marks the session scanning with a reader; a first-frame hit with the video mounted and a handler that is not paused reports its text exactly once and tears the session down again; after a miss the next frame is scheduled exactly when the handler's snapshot is scanning and not paused |
| BarcodeScanner.ScanStill | src/components/BarcodeScanner.tsx:162-170 | a decoded still reports its text exactly once and changes no state; a failed one shows the fixed no-barcode message and reports nothing |
| BarcodeScanner.HandleFileUpload | src/components/BarcodeScanner.tsx:172-193 | no file does nothing; a HEIC file is converted first and the handler ends silently if conversion fails; the decode receives the renamed JPEG or the original file; a decoded plain file or converted HEIC reports its code exactly once, with no other report and no state change; an undecoded one reports nothing; only the error message can change |
| BarcodeScannerProofs.HeicUpload | src/components/BarcodeScanner.tsx:178-185 | a converted HEIC upload is decoded as `image/jpeg` under its `.jpg` name and, when decoded, reports its code once after the conversion and the decode; a failed conversion makes no other call |
| BarcodeScannerProofs.StillFailureMessage | src/components/BarcodeScanner.tsx:167-168 | every failed still decode, uploaded or captured, shows "No barcode detected in image." |
| BarcodeScanner.TogglePausePlay | src/components/BarcodeScanner.tsx:195-261 | without video and canvas nothing happens; resume clears the pause, frozen frame and error; pause clears a pending timeout once, keeps the stream and freezes the frame only when a 2D context exists |
| BarcodeScannerProofs.PauseThenResume | src/components/BarcodeScanner.tsx:198-232 | pause then resume leaves no frozen frame, no error and no timer, keeps the stream, and decodes nothing |
| BarcodeScanner.CaptureDecoded | src/components/BarcodeScanner.tsx:250-259 | no blob does nothing; a decoded capture reports its text once and changes no state, so the session stays paused with its stream held |
| BarcodeScannerProofs.RunKeepsFrozenInvariant | src/components/BarcodeScanner.tsx:195-261 | through any sequence of events a frozen frame exists only while paused |
| BarcodeScannerProofs.ApplyKeepsFrozenInvariant | src/components/BarcodeScanner.tsx:228-249 | no single handler leaves a frozen frame without the pause |
| BarcodeScannerProofs.EventReportsAtMostOnce | src/components/BarcodeScanner.tsx:31-259 | no single event reports more than one code to the host |
| BarcodeScannerProofs.StartReportsNothing | src/components/BarcodeScanner.tsx:83-158 | starting a session never reports a code |
| BarcodeScanner.Apply | src/components/BarcodeScanner.tsx:31-374 | only typing and a submit change the input field, and only a start replaces the camera list |
| BarcodeScannerProofs.RunAppend | src/components/BarcodeScanner.tsx:14-261 | handling events one batch after another is handling them all in order: the second batch starts from the state the first left, and the calls are made in order |
| BarcodeScannerProofs.RunReportsAtMostOncePerEvent | src/components/BarcodeScanner.tsx:31-259 | `n` events report at most `n` codes to the host |
| BarcodeScannerProofs.FromMount | src/components/BarcodeScanner.tsx:15-29 | the mounted component holds no session, and after any events from mount a frozen frame exists only while paused |
| BarcodeScanner.PressLiveButton | src/components/BarcodeScanner.tsx:385 | the camera button stops the session while scanning and otherwise starts one from the render's own snapshot, enumerating devices before requesting the captured camera |
| BarcodeScannerProofs.ButtonsWhileScanning | src/components/BarcodeScanner.tsx:385-411 | while scanning the camera button is a stop button that ends the session and the upload and search buttons are disabled; while loading all three are disabled; otherwise the camera and upload buttons are enabled |

## Left out

- Browser and library internals are parameters, not models. This covers `enumerateDevices`, `getUserMedia`, video playback, canvas drawing, `toDataURL` and `toBlob`, the zxing decoders and `heic2any`. Their results enter as `devices`, `Answers`, `DecodeOutcome`, `StillOutcome`, `converted` and `blob`. The frozen data URL is an opaque string.
- Timing and concurrency are out: the 50 ms and 100 ms timeouts, and the interleaving of awaits with React re-renders. A handler runs to completion against the state and closure passed to it. `RunLoop` models the `scanFrame` chain while the video stays mounted and no other event intervenes.
- BarcodeScanner.SwitchCamera: the restart the handler holds is a parameter constrained only by `SwitchMayHold`; which earlier render produced it, and hence its `isPaused` and camera list, is left to the caller.
- ProductDetails.SelectedIndex: reads the selection map by own keys only. In the source, a store named after an `Object.prototype` member (`constructor`, `toString`, `__proto__`) that nobody clicked reads the inherited value, a function or object, so the main image gets no valid `src` and no thumbnail is highlighted; the model shows image 0 highlighted for it.
- BarcodeScanner.Apply: events are not filtered by what is on screen. For example, the pause button exists only while the camera view shows, but the event model also allows a pause event when it is hidden.
- `heic2any` resolving with an array is folded into one `Blob`, because the code takes its first element.
- `onScan` throwing inside the still-image helper is not modelled. The code would turn that into the same no-barcode message.
- Text.ToLower: lower-cases ASCII letters only. JavaScript also lower-cases other characters, and can lengthen the string (U+0130 becomes `i` followed by U+0307), but no such expansion can produce a trailing `.heic`, so the HEIC test is unaffected.
- JSON numbers are integers. Floating-point values and their `String(value)` text are out, and so is the final `String(value)` fallback for non-JSON values. Status codes and integers are written as decimal digits, which is what JavaScript prints below 1e21 in magnitude; its exponent form from 1e21 on is not modelled.
- JSON objects are lists of entries in `Object.keys` order. Distinct keys are not enforced, because the rendering does not depend on it.
- The card's upper-casing of the store name is out; `Card.title` holds the name before `toUpperCase`.
- The card's price, discount percentage, unit price, stock and rating lines are floating-point display formatting and are not modelled.
- Image `onError` hiding and `window.open` on click are DOM side effects and are not modelled.
- `getProductByGTIN` is a network call; only its outcome (a response, an `Error` with a message, or another thrown value) enters `HandleScan`. `StatusError` gives the message for a non-2xx status.
- `src/lib/utils.ts`, `src/app/layout.tsx` and the GTIN detail page (`src/app/gtin/[gtin]/page.tsx`) are not part of this model.

=== FILE: barcode_scanner.dfy ===
/** The scanning session of `BarcodeScanner.tsx` as a state machine.

    `Scanner` holds the component's React state together with its three resource
    refs (the media stream, the zxing reader and the pending scan timeout).  Every
    handler is a pure function from the state it runs against, plus the results of
    the browser and library calls it awaits, to a `Step`: the next state and the
    calls it makes on the outside world, in order.

    A React handler reads state from the render that created it, not the current
    state.  `Closure` is that captured snapshot; the handlers whose staleness
    matters (`startScanning` and the `scanFrame` loop it starts) take it as a
    parameter, separately from the live state. */
module BarcodeScanner {
  import opened Wrappers
  import opened Text
  import opened Seqs

  datatype DeviceKind = VideoInput | AudioInput | AudioOutput

  /** One `MediaDeviceInfo` from `enumerateDevices`. */
  datatype Device = Device(deviceId: string, kind: DeviceKind, deviceLabel: string)

  /** Image bytes, opaque to the model. */
  type Blob = nat

  datatype File = File(name: string, mimeType: string, data: Blob)

  datatype Scanner = Scanner(
    input: string,
    isScanning: bool,
    showCamera: bool,
    scanError: Option<string>,
    cameras: seq<Device>,
    currentCameraIndex: nat,
    isPaused: bool,
    frozenImage: Option<string>,
    streamHeld: bool,   // streamRef.current is a stream
    timerHeld: bool,    // scanIntervalRef.current is a timeout id
    readerExists: bool) // readerRef.current is a reader

  const Initial: Scanner := Scanner("", false, false, None, [], 0, false, None, false, false, false)

  /** The state a handler closed over when its render created it. */
  datatype Closure = Closure(cameras: seq<Device>, cameraIndex: nat, isScanning: bool, isPaused: bool)

  /** The snapshot a handler created by the render of `s` sees. */
  function Capture(s: Scanner): Closure {
    Closure(s.cameras, s.currentCameraIndex, s.isScanning, s.isPaused)
  }

  /** The `video` constraint of a `getUserMedia` request. */
  datatype Constraint = ExactDevice(deviceId: string) | FacingEnvironment | AnyVideo

  /** A call the component makes on the outside world. */
  datatype Effect =
    | OnScan(code: string)            // the host's onScan callback
    | ClearTimer                      // clearTimeout(scanIntervalRef.current)
    | StopTracks                      // every track of the held stream stopped
    | ResetReader                     // readerRef.current.reset()
    | EnumerateDevices
    | RequestStream(constraint: Constraint)
    | AwaitMetadata(closure: Closure) // onloadedmetadata handler installed
    | DecodeFrame                     // decodeFromVideoElement
    | ScheduleFrame(closure: Closure) // setTimeout(scanFrame, 50)
    | ScheduleRestart(closure: Closure) // setTimeout(startScanning, 100)
    | ConvertHeic(file: File)         // heic2any
    | DecodeStill(file: File)         // decodeFromImageUrl
    | CaptureBlob                     // canvas.toBlob

  datatype Step = Step(state: Scanner, effects: seq<Effect>)

  const CameraDeniedMessage := "Camera access denied. Please allow camera permissions."
  const NoBarcodeMessage := "No barcode detected in image."

  /** How many times `e` occurs in `effects`. */
  function Count(effects: seq<Effect>, e: Effect): nat {
    multiset(effects)[e]
  }

  predicate NoOnScan(effects: seq<Effect>) {
    forall i :: 0 <= i < |effects| ==> !effects[i].OnScan?
  }

  /** How many codes `effects` report to the host. */
  function Reports(effects: seq<Effect>): nat {
    if |effects| == 0 then 0 else (if effects[0].OnScan? then 1 else 0) + Reports(effects[1..])
  }

  /** A resource release made by `stopScanning`. */
  predicate IsRelease(e: Effect) {
    e == ClearTimer || e == StopTracks || e == ResetReader
  }

  lemma {:induction false} ReportsAppend(a: seq<Effect>, b: seq<Effect>)
    ensures Reports(a + b) == Reports(a) + Reports(b)
    decreases |a|
  {
    if |a| == 0 {
      assert a + b == b;
    } else {
      assert (a + b)[1..] == a[1..] + b;
      ReportsAppend(a[1..], b);
    }
  }

  lemma {:induction false} ReleasesReportNothing(effects: seq<Effect>)
    requires forall i :: 0 <= i < |effects| ==> IsRelease(effects[i])
    ensures Reports(effects) == 0
    decreases |effects|
  {
    if |effects| > 0 {
      ReleasesReportNothing(effects[1..]);
    }
  }

  lemma CountAppend(a: seq<Effect>, b: seq<Effect>, e: Effect)
    ensures Count(a + b, e) == Count(a, e) + Count(b, e)
  {
    assert multiset(a + b) == multiset(a) + multiset(b);
  }

  // ---------------------------------------------------------------------------
  // Manual entry

  /** `handleSubmit`: a non-blank input is reported trimmed and the field is cleared. */
  function HandleSubmit(s: Scanner): (r: Step)
    ensures AllWhitespace(s.input) <==> r == Step(s, [])
    ensures !AllWhitespace(s.input) ==> r.state == s.(input := "") && r.effects == [OnScan(Trim(s.input))]
    ensures forall i :: 0 <= i < |r.effects| ==> r.effects[i].OnScan? && r.effects[i].code != ""
  {
    var code := Trim(s.input);
    if code != "" then Step(s.(input := ""), [OnScan(code)]) else Step(s, [])
  }

  // ---------------------------------------------------------------------------
  // Teardown

  /** Nothing of a camera session is left: no timer, no stream, nothing on screen. */
  predicate Stopped(s: Scanner) {
    && !s.isScanning && !s.showCamera && !s.isPaused
    && s.scanError.None? && s.frozenImage.None?
    && !s.streamHeld && !s.timerHeld
  }

  /** `stopScanning`: releases whatever is held and resets the session flags. */
  function StopScanning(s: Scanner): (r: Step)
    ensures Stopped(r.state)
    ensures r.state.input == s.input && r.state.cameras == s.cameras
    ensures r.state.currentCameraIndex == s.currentCameraIndex && r.state.readerExists == s.readerExists
    ensures forall i :: 0 <= i < |r.effects| ==> IsRelease(r.effects[i])
  {
    Step(
      s.(isScanning := false, showCamera := false, scanError := None, isPaused := false,
         frozenImage := None, streamHeld := false, timerHeld := false),
      (if s.timerHeld then [ClearTimer] else [])
      + (if s.streamHeld then [StopTracks] else [])
      + (if s.readerExists then [ResetReader] else []))
  }

  // ---------------------------------------------------------------------------
  // Camera switching

  /** The snapshot inside the `startScanning` a memoised `switchCamera` can hold.  The
      handler is recreated only when the camera count, the index or `isScanning`
      change, so the snapshot agrees with `s` on those; its camera list may be an older
      one of the same length, and its `isPaused` may be stale. */
  predicate SwitchMayHold(s: Scanner, held: Closure) {
    |held.cameras| == |s.cameras| && held.cameraIndex == s.currentCameraIndex && held.isScanning == s.isScanning
  }

  /** `switchCamera`: with two or more cameras, moves to the next one cyclically and,
      when scanning, tears down and schedules a restart with the `startScanning` the
      handler holds, whose snapshot `held` still has the old camera index. */
  function SwitchCamera(s: Scanner, held: Closure): (r: Step)
    ensures |s.cameras| <= 1 ==> r == Step(s, [])
    ensures |s.cameras| > 1 ==> r.state.currentCameraIndex < |s.cameras|
    ensures |s.cameras| > 1 ==> r.state.currentCameraIndex == (s.currentCameraIndex + 1) % |s.cameras|
    ensures |s.cameras| > 1 && s.currentCameraIndex + 1 < |s.cameras| ==>
              r.state.currentCameraIndex == s.currentCameraIndex + 1
    ensures |s.cameras| > 1 && s.currentCameraIndex + 1 == |s.cameras| ==> r.state.currentCameraIndex == 0
    ensures r.state.cameras == s.cameras
    ensures |s.cameras| > 1 && s.isScanning ==>
              Stopped(r.state) && r.effects == StopScanning(s).effects + [ScheduleRestart(held)]
    ensures |s.cameras| > 1 && !s.isScanning ==> r.effects == [] && r.state == s.(currentCameraIndex := r.state.currentCameraIndex)
  {
    if |s.cameras| > 1 then
      var next := (s.currentCameraIndex + 1) % |s.cameras|;
      if s.isScanning then
        var stop := StopScanning(s);
        Step(stop.state.(currentCameraIndex := next), stop.effects + [ScheduleRestart(held)])
      else Step(s.(currentCameraIndex := next), [])
    else Step(s, [])
  }

  // ---------------------------------------------------------------------------
  // Starting a camera session

  /** Whether each of the three `getUserMedia` calls would resolve with a stream. */
  datatype Answers = Answers(first: bool, second: bool, third: bool)

  /** The constraint of the first two requests: the captured current camera when the
      captured list has one at the captured index, the rear camera otherwise. */
  function Preferred(c: Closure): (r: Constraint)
    ensures r.ExactDevice? <==> c.cameraIndex < |c.cameras|
    ensures r.ExactDevice? ==> r.deviceId == c.cameras[c.cameraIndex].deviceId
    ensures !r.ExactDevice? ==> r == FacingEnvironment
  {
    if c.cameraIndex < |c.cameras| then ExactDevice(c.cameras[c.cameraIndex].deviceId) else FacingEnvironment
  }

  /** The requests in the order they are tried. */
  function Chain(c: Closure): (r: seq<Constraint>)
    ensures |r| == 3 && r[0] == r[1] == Preferred(c) && r[2] == AnyVideo
  {
    [Preferred(c), Preferred(c), AnyVideo]
  }

  function Granted(a: Answers, i: nat): bool {
    if i == 0 then a.first else if i == 1 then a.second else a.third
  }

  /** The fallback chain: the requests made, and whether one of them was granted.
      The first granted request wins and nothing is asked after it. */
  function Acquire(c: Closure, a: Answers): (r: (seq<Constraint>, bool))
    ensures 1 <= |r.0| <= 3 && r.0 <= Chain(c)
    ensures forall i :: 0 <= i < |r.0| - 1 ==> !Granted(a, i)
    ensures r.1 <==> Granted(a, |r.0| - 1)
    ensures r.1 <==> a.first || a.second || a.third
    ensures !r.1 ==> r.0 == Chain(c)
    ensures r.1 ==> |r.0| == (if a.first then 1 else if a.second then 2 else 3)
  {
    var p := Preferred(c);
    if a.first then ([p], true)
    else if a.second then ([p, p], true)
    else ([p, p, AnyVideo], a.third)
  }

  predicate IsVideoInput(d: Device) {
    d.kind == VideoInput
  }

  /** `getCameras`: keeps the video inputs, in enumeration order (the order
      `switchCamera` cycles through). */
  function VideoInputs(devices: seq<Device>): (r: seq<Device>)
    ensures |r| <= |devices|
    ensures forall d :: d in r <==> d in devices && d.kind == VideoInput
    ensures forall d :: multiset(r)[d] == if d.kind == VideoInput then multiset(devices)[d] else 0
  {
    Filter(IsVideoInput, devices)
  }

  function Requests(cs: seq<Constraint>): (r: seq<Effect>)
    ensures |r| == |cs| && forall i :: 0 <= i < |cs| ==> r[i] == RequestStream(cs[i])
  {
    seq(|cs|, i requires 0 <= i < |cs| => RequestStream(cs[i]))
  }

  /** `startScanning` up to the point where it waits for the video's metadata.
      `devices` is what `enumerateDevices` resolved with (`None` if it rejected),
      `answers` are the `getUserMedia` results, and `videoMounted` says whether the
      video element exists.  The request reads the captured camera list, not the one
      just enumerated. */
  function StartScanning(s: Scanner, c: Closure, devices: Option<seq<Device>>, answers: Answers, videoMounted: bool): (r: Step)
    ensures r.state.cameras == (if devices.Some? then VideoInputs(devices.value) else s.cameras)
    ensures |r.effects| >= 2 && r.effects[0] == EnumerateDevices && r.effects[1] == RequestStream(Preferred(c))
    ensures |r.effects| >= 1 + |Acquire(c, answers).0|
    ensures r.effects[..1 + |Acquire(c, answers).0|] == [EnumerateDevices] + Requests(Acquire(c, answers).0)
    ensures Acquire(c, answers).1 && videoMounted ==> r.effects[|r.effects| - 1] == AwaitMetadata(c)
    ensures !(Acquire(c, answers).1 && videoMounted) ==> r.effects == [EnumerateDevices] + Requests(Acquire(c, answers).0)
    ensures Acquire(c, answers).1 && videoMounted ==>
              r.effects == [EnumerateDevices] + Requests(Acquire(c, answers).0) + [AwaitMetadata(c)]
    ensures r.state == s.(cameras := r.state.cameras, scanError := r.state.scanError,
                          showCamera := r.state.showCamera, streamHeld := r.state.streamHeld)
    ensures answers.first || answers.second || answers.third ==>
              r.state.streamHeld && r.state.showCamera && r.state.scanError.None?
    ensures !(answers.first || answers.second || answers.third) ==>
              r.state.streamHeld == s.streamHeld && !r.state.showCamera
              && r.state.scanError == Some(CameraDeniedMessage)
  {
    var s1 := s.(scanError := None, showCamera := true);
    var s2 := if devices.Some? then s1.(cameras := VideoInputs(devices.value)) else s1;
    var (requested, granted) := Acquire(c, answers);
    var asked := [EnumerateDevices] + Requests(requested);
    if !granted then
      Step(s2.(scanError := Some(CameraDeniedMessage), showCamera := false), asked)
    else
      Step(s2.(streamHeld := true), asked + (if videoMounted then [AwaitMetadata(c)] else []))
  }

  // ---------------------------------------------------------------------------
  // The live scan loop

  /** What one `decodeFromVideoElement` call settles with. */
  datatype DecodeOutcome = Hit(text: string) | NoResult | Threw

  /** `result && result.getText()`: only a non-empty text counts as a hit. */
  predicate IsHit(o: DecodeOutcome) {
    o.Hit? && o.text != ""
  }

  /** Whether `scanFrame` gets past its guard and calls the decoder. */
  predicate Decodes(s: Scanner, c: Closure, videoMounted: bool) {
    videoMounted && s.readerExists && !c.isPaused
  }

  /** One run of `scanFrame` from closure `c`.  A hit is reported and the session is
      torn down; a miss or a decoder exception is swallowed and the next run is
      scheduled only if the captured flags say scanning and not paused. */
  function ScanFrame(s: Scanner, c: Closure, videoMounted: bool, outcome: DecodeOutcome): (r: Step)
    ensures Count(r.effects, DecodeFrame) == (if Decodes(s, c, videoMounted) then 1 else 0)
    ensures !Decodes(s, c, videoMounted) ==> r == Step(s, [])
  {
    if !videoMounted || !s.readerExists || c.isPaused then Step(s, [])
    else if IsHit(outcome) then
      var stop := StopScanning(s);
      Step(stop.state, [DecodeFrame, OnScan(outcome.text)] + stop.effects)
    else if c.isScanning && !c.isPaused then
      Step(s.(timerHeld := true), [DecodeFrame, ScheduleFrame(c)])
    else Step(s, [DecodeFrame])
  }

  /** The teardown after a live hit: the hit is the only code reported. */
  lemma HitReportsOnce(s: Scanner, text: string)
    ensures Reports([DecodeFrame, OnScan(text)] + StopScanning(s).effects) == 1
    ensures Count([DecodeFrame, OnScan(text)] + StopScanning(s).effects, OnScan(text)) == 1
  {
    var stop := StopScanning(s).effects;
    ReportsAppend([DecodeFrame, OnScan(text)], stop);
    ReleasesReportNothing(stop);
    assert Reports([DecodeFrame, OnScan(text)]) == 1 by {
      assert [DecodeFrame, OnScan(text)][1..][1..] == [];
    }
    assert OnScan(text) !in multiset(stop) by {
      assert forall i :: 0 <= i < |stop| ==> IsRelease(stop[i]);
    }
    assert multiset([DecodeFrame, OnScan(text)] + stop) == multiset{DecodeFrame, OnScan(text)} + multiset(stop);
  }

  /** The `onloadedmetadata` handler: marks the session scanning, creates the reader
      on first use, and makes the first `scanFrame` run. */
  function MetadataLoaded(s: Scanner, c: Closure, videoMounted: bool, outcome: DecodeOutcome): (r: Step)
    ensures IsHit(outcome) && videoMounted && !c.isPaused ==> Stopped(r.state)
    ensures IsHit(outcome) && videoMounted && !c.isPaused ==>
              Reports(r.effects) == 1 && Count(r.effects, OnScan(outcome.text)) == 1
    ensures !IsHit(outcome) ==> r.state.isScanning && r.state.readerExists
    ensures !IsHit(outcome) && videoMounted ==> (ScheduleFrame(c) in r.effects <==> c.isScanning && !c.isPaused)
  {
    var ready := s.(isScanning := true, readerExists := true);
    if IsHit(outcome) && videoMounted && !c.isPaused then
      HitReportsOnce(ready, outcome.text);
      ScanFrame(ready, c, videoMounted, outcome)
    else ScanFrame(ready, c, videoMounted, outcome)
  }

  /** The chain of `scanFrame` runs a closure produces while the video stays mounted:
      each run after the first is the timeout the previous one scheduled, and
      `outcomes` are the decoder's answers in order. */
  function RunLoop(s: Scanner, c: Closure, outcomes: seq<DecodeOutcome>): Step
    decreases |outcomes|
  {
    if |outcomes| == 0 then Step(s, [])
    else
      var step := ScanFrame(s, c, true, outcomes[0]);
      if ScheduleFrame(c) in step.effects then
        var rest := RunLoop(step.state, c, outcomes[1..]);
        Step(rest.state, step.effects + rest.effects)
      else step
  }

  // ---------------------------------------------------------------------------
  // Still images

  /** What one `decodeFromImageUrl` call settles with. */
  datatype StillOutcome = Decoded(text: string) | NotDecoded

  /** `scanBarcodeFromImage` together with its caller's `catch`: the text is reported,
      or the fixed message is shown, since the helper always rethrows an `Error` with
      that message.  The camera session is not touched either way. */
  function ScanStill(s: Scanner, file: File, outcome: StillOutcome): (r: Step)
    ensures |r.effects| >= 1 && r.effects[0] == DecodeStill(file)
    ensures outcome.Decoded? ==> r == Step(s, [DecodeStill(file), OnScan(outcome.text)])
    ensures outcome.Decoded? ==> Reports(r.effects) == 1 && Count(r.effects, OnScan(outcome.text)) == 1
    ensures outcome.NotDecoded? ==>
              r.state == s.(scanError := Some(NoBarcodeMessage)) && NoOnScan(r.effects)
  {
    match outcome
    case Decoded(text) =>
      var effects := [DecodeStill(file), OnScan(text)];
      assert effects[1..][1..] == [];
      assert Reports(effects[1..]) == 1;
      assert multiset(effects) == multiset{DecodeStill(file), OnScan(text)};
      Step(s, effects)
    case NotDecoded => Step(s.(scanError := Some(NoBarcodeMessage)), [DecodeStill(file)])
  }

  const JpegType := "image/jpeg"

  /** `handleFileUpload`: `file` is the first selected file, `converted` what
      `heic2any` resolved with (`None` if it rejected), `outcome` the decode result. */
  function HandleFileUpload(s: Scanner, file: Option<File>, converted: Option<Blob>, outcome: StillOutcome): (r: Step)
    ensures file.None? ==> r == Step(s, [])
    ensures file.Some? && IsHeicName(file.value.name) && converted.None? ==>
              r == Step(s, [ConvertHeic(file.value)])
    ensures file.Some? && IsHeicName(file.value.name) && converted.Some? ==>
              |r.effects| >= 2 && r.effects[0] == ConvertHeic(file.value)
              && r.effects[1] == DecodeStill(File(ReplaceHeicSuffix(file.value.name), JpegType, converted.value))
    ensures file.Some? && !IsHeicName(file.value.name) ==> |r.effects| >= 1 && r.effects[0] == DecodeStill(file.value)
    ensures r.state.scanError != s.scanError ==> r.state.scanError == Some(NoBarcodeMessage)
    ensures r.state == s.(scanError := r.state.scanError)
    ensures file.Some? && !IsHeicName(file.value.name) && outcome.Decoded? ==>
              r == Step(s, [DecodeStill(file.value), OnScan(outcome.text)])
    ensures file.Some? && IsHeicName(file.value.name) && converted.Some? && outcome.Decoded? ==>
              r.state == s && r.effects[2..] == [OnScan(outcome.text)]
    ensures file.Some? && (!IsHeicName(file.value.name) || converted.Some?) && outcome.Decoded? ==>
              r.state == s && Count(r.effects, OnScan(outcome.text)) == 1 && Reports(r.effects) == 1
    ensures outcome.NotDecoded? ==> NoOnScan(r.effects)
  {
    match file
    case None => Step(s, [])
    case Some(f) =>
      if IsHeicName(f.name) then
        match converted
        case None => Step(s, [ConvertHeic(f)])
        case Some(blob) =>
          var jpeg := File(ReplaceHeicSuffix(f.name), JpegType, blob);
          var scan := ScanStill(s, jpeg, outcome);
          var effects := [ConvertHeic(f)] + scan.effects;
          ReportsAppend([ConvertHeic(f)], scan.effects);
          if outcome.Decoded? then
            CountAppend([ConvertHeic(f)], scan.effects, OnScan(outcome.text));
            assert effects[2..] == scan.effects[1..];
            Step(scan.state, effects)
          else Step(scan.state, effects)
      else ScanStill(s, f, outcome)
  }

  // ---------------------------------------------------------------------------
  // Pause, capture and resume

  /** Whether the video element, the canvas and its 2D context exist. */
  datatype Surfaces = Surfaces(video: bool, canvas: bool, context: bool)

  /** `togglePausePlay`.  Pausing stops the timer, keeps the stream, freezes the frame
      (`frame` is the JPEG data URL) and asks for a blob.  Resuming clears the pause,
      the frozen frame and the error, then starts a `scanFrame` from this render,
      whose captured `isPaused` is still true, so it returns before decoding. */
  function TogglePausePlay(s: Scanner, surfaces: Surfaces, frame: string, outcome: DecodeOutcome): (r: Step)
    ensures !surfaces.video || !surfaces.canvas ==> r == Step(s, [])
    ensures surfaces.video && surfaces.canvas && s.isPaused ==>
              r == Step(s.(isPaused := false, frozenImage := None, scanError := None), [])
    ensures surfaces.video && surfaces.canvas && !s.isPaused ==>
              && r.state.isPaused && !r.state.timerHeld
              && r.state.streamHeld == s.streamHeld && r.state.isScanning == s.isScanning
              && Count(r.effects, StopTracks) == 0 && Count(r.effects, DecodeFrame) == 0
              && Count(r.effects, ClearTimer) == (if s.timerHeld then 1 else 0)
              && (surfaces.context ==> r.state.frozenImage == Some(frame))
              && (!surfaces.context ==> r.state.frozenImage == s.frozenImage)
  {
    if !surfaces.video || !surfaces.canvas then Step(s, [])
    else if s.isPaused then
      var resumed := s.(isPaused := false, frozenImage := None, scanError := None);
      if s.isScanning && s.readerExists then ScanFrame(resumed, Capture(s), surfaces.video, outcome)
      else Step(resumed, [])
    else
      var paused := s.(isPaused := true, timerHeld := false);
      var cleared := if s.timerHeld then [ClearTimer] else [];
      if !surfaces.context then Step(paused, cleared)
      else Step(paused.(frozenImage := Some(frame)), cleared + [CaptureBlob])
  }

  const CapturedName := "captured-image.jpg"

  /** The `toBlob` callback of a pause: decodes the captured frame.  A hit is reported
      but the session stays paused with its stream held. */
  function CaptureDecoded(s: Scanner, blob: Option<Blob>, outcome: StillOutcome): (r: Step)
    ensures blob.None? ==> r == Step(s, [])
    ensures blob.Some? && outcome.Decoded? ==> r.state == s && Count(r.effects, OnScan(outcome.text)) == 1
    ensures blob.Some? && outcome.NotDecoded? ==> r.state == s.(scanError := Some(NoBarcodeMessage))
    ensures Count(r.effects, StopTracks) == 0
  {
    match blob
    case None => Step(s, [])
    case Some(b) => ScanStill(s, File(CapturedName, JpegType, b), outcome)
  }

  // ---------------------------------------------------------------------------
  // Buttons

  datatype LiveAction = StartAction | StopAction

  /** The camera button runs `stopScanning` while scanning and `startScanning` otherwise. */
  function LiveButtonAction(s: Scanner): LiveAction {
    if s.isScanning then StopAction else StartAction
  }

  /** A click on the camera button of the render showing `s`, with the results the
      start handler would await. */
  function PressLiveButton(s: Scanner, devices: Option<seq<Device>>, answers: Answers, videoMounted: bool): (r: Step)
    ensures s.isScanning ==> r == Apply(s, StopClicked) && Stopped(r.state)
    ensures !s.isScanning ==> r == Apply(s, StartRan(Capture(s), devices, answers, videoMounted))
    ensures !s.isScanning ==> |r.effects| >= 2 && r.effects[0] == EnumerateDevices
                              && r.effects[1] == RequestStream(Preferred(Capture(s)))
  {
    match LiveButtonAction(s)
    case StopAction => StopScanning(s)
    case StartAction => StartScanning(s, Capture(s), devices, answers, videoMounted)
  }

  predicate LiveButtonDisabled(isLoading: bool) {
    isLoading
  }

  predicate UploadDisabled(s: Scanner, isLoading: bool) {
    isLoading || s.isScanning
  }

  predicate SearchDisabled(s: Scanner, isLoading: bool) {
    isLoading || Trim(s.input) == "" || s.isScanning
  }

  // ---------------------------------------------------------------------------
  // The component as a whole

  /** Everything that can happen to the component, each with the results of the
      calls its handler awaits. */
  datatype Event =
    | Typed(text: string)
    | Submitted
    | StopClicked
    | SwitchClicked(held: Closure)
    | StartRan(closure: Closure, devices: Option<seq<Device>>, answers: Answers, videoMounted: bool)
    | MetadataReady(closure: Closure, videoMounted: bool, outcome: DecodeOutcome)
    | FrameTimerFired(closure: Closure, videoMounted: bool, outcome: DecodeOutcome)
    | PauseClicked(surfaces: Surfaces, frame: string, outcome: DecodeOutcome)
    | BlobReady(blob: Option<Blob>, still: StillOutcome)
    | FileChosen(file: Option<File>, converted: Option<Blob>, still: StillOutcome)

  /** One event.  Only typing and a submit touch the input, and only a start
      replaces the camera list. */
  function Apply(s: Scanner, e: Event): (r: Step)
    ensures !e.Typed? && !e.Submitted? ==> r.state.input == s.input
    ensures !e.StartRan? ==> r.state.cameras == s.cameras
  {
    match e
    case Typed(text) => Step(s.(input := text), [])
    case Submitted => HandleSubmit(s)
    case StopClicked => StopScanning(s)
    case SwitchClicked(held) => SwitchCamera(s, held)
    case StartRan(c, devices, answers, video) => StartScanning(s, c, devices, answers, video)
    case MetadataReady(c, video, outcome) => MetadataLoaded(s, c, video, outcome)
    case FrameTimerFired(c, video, outcome) => ScanFrame(s, c, video, outcome)
    case PauseClicked(surfaces, frame, outcome) => TogglePausePlay(s, surfaces, frame, outcome)
    case BlobReady(blob, still) => CaptureDecoded(s, blob, still)
    case FileChosen(file, converted, still) => HandleFileUpload(s, file, converted, still)
  }

  /** A sequence of events from `s`: the final state and all calls made, in order. */
  function Run(s: Scanner, events: seq<Event>): Step
    decreases |events|
  {
    if |events| == 0 then Step(s, [])
    else
      var first := Apply(s, events[0]);
      var rest := Run(first.state, events[1..]);
      Step(rest.state, first.effects + rest.effects)
  }
}

=== FILE: barcode_scanner_proofs.dfy ===
/** Properties of the scanning session model. */
module BarcodeScannerProofs {
  import opened Wrappers
  import opened Text
  import opened BarcodeScanner
  import opened Seqs

  // ---------------------------------------------------------------------------
  // Manual entry

  /** Whenever the search button is enabled, submitting reports the trimmed input
      and clears the field; with a blank input, submitting does nothing. */
  lemma SubmitAgreesWithSearchButton(s: Scanner, isLoading: bool)
    ensures !SearchDisabled(s, isLoading) ==>
              HandleSubmit(s) == Step(s.(input := ""), [OnScan(Trim(s.input))])
    ensures Trim(s.input) == "" ==> HandleSubmit(s) == Step(s, []) && SearchDisabled(s, isLoading)
  {
  }

  // ---------------------------------------------------------------------------
  // Teardown

  /** Stopping twice is stopping once: the second call finds nothing to clear or
      release and only resets the reader again. */
  lemma StopIdempotent(s: Scanner)
    ensures StopScanning(StopScanning(s).state).state == StopScanning(s).state
    ensures StopScanning(StopScanning(s).state).effects == (if s.readerExists then [ResetReader] else [])
  {
  }

  /** Each release happens once at most: exactly once when its resource is held. */
  lemma StopCounts(s: Scanner)
    ensures Count(StopScanning(s).effects, ClearTimer) == (if s.timerHeld then 1 else 0)
    ensures Count(StopScanning(s).effects, StopTracks) == (if s.streamHeld then 1 else 0)
    ensures Count(StopScanning(s).effects, ResetReader) == (if s.readerExists then 1 else 0)
    ensures Count(StopScanning(s).effects, DecodeFrame) == 0
  {
    var t: seq<Effect> := if s.timerHeld then [ClearTimer] else [];
    var k: seq<Effect> := if s.streamHeld then [StopTracks] else [];
    var d: seq<Effect> := if s.readerExists then [ResetReader] else [];
    assert StopScanning(s).effects == t + k + d;
    assert multiset(t + k + d) == multiset(t) + multiset(k) + multiset(d);
  }

  // ---------------------------------------------------------------------------
  // Camera switching

  /** The state after `k` clicks on the switch button.  The index moves the same way
      whichever restart the handler holds, so each click here holds its own render's. */
  function SwitchTimes(s: Scanner, k: nat): Scanner
    decreases k
  {
    if k == 0 then s else
      var before := SwitchTimes(s, k - 1);
      SwitchCamera(before, Capture(before)).state
  }

  /** After `k` clicks, for `k` up to the number of cameras, the index has moved `k`
      places forward, wrapping past the last camera to the first. */
  lemma {:induction false} SwitchAdvances(s: Scanner, k: nat)
    requires |s.cameras| > 1 && s.currentCameraIndex < |s.cameras| && k <= |s.cameras|
    ensures SwitchTimes(s, k).cameras == s.cameras
    ensures var i := s.currentCameraIndex + k;
      SwitchTimes(s, k).currentCameraIndex == if i < |s.cameras| then i else i - |s.cameras|
    decreases k
  {
    if k > 0 {
      SwitchAdvances(s, k - 1);
    }
  }

  /** Any number of clicks moves the index that many places forward modulo the
      number of cameras. */
  lemma {:induction false} SwitchWraps(s: Scanner, k: nat)
    requires |s.cameras| > 1 && s.currentCameraIndex < |s.cameras|
    ensures SwitchTimes(s, k).cameras == s.cameras
    ensures SwitchTimes(s, k).currentCameraIndex == (s.currentCameraIndex + k) % |s.cameras|
    decreases k
  {
    if k > 0 {
      SwitchWraps(s, k - 1);
      ModSucc(s.currentCameraIndex + k - 1, |s.cameras|);
    }
  }

  /** Adding one after reducing modulo `n` is adding one before. */
  lemma ModSucc(a: nat, n: nat)
    requires n > 0
    ensures (a % n + 1) % n == (a + 1) % n
  {
    var q, m := a / n, a % n;
    if m + 1 < n {
      ModUnique(a + 1, n, q, m + 1);
    } else {
      assert q * n + n == (q + 1) * n;
      ModUnique(a + 1, n, q + 1, 0);
    }
  }

  /** The remainder is the `m` of any decomposition `x == q * n + m` with `0 <= m < n`. */
  lemma ModUnique(x: int, n: int, q: int, m: int)
    requires n > 0 && 0 <= m < n && x == q * n + m
    ensures x % n == m
  {
    var q2, m2 := x / n, x % n;
    var d := q2 - q;
    assert d * n == m - m2 by {
      assert q2 * n - q * n == d * n;
    }
  }

  /** With two or more cameras, as many switches as there are cameras bring the
      index back to where it started; with one camera or none, switching does nothing. */
  lemma SwitchCycles(s: Scanner)
    requires s.currentCameraIndex < |s.cameras|
    ensures SwitchTimes(s, |s.cameras|).currentCameraIndex == s.currentCameraIndex
    ensures |s.cameras| <= 1 ==> forall held :: SwitchCamera(s, held) == Step(s, [])
  {
    var n := |s.cameras|;
    if n > 1 {
      SwitchAdvances(s, n);
    } else if n == 1 {
      assert SwitchTimes(s, 1) == SwitchCamera(s, Capture(s)).state;
    }
  }

  /** A switch while scanning tears the session down and schedules the restart the
      handler holds, whose snapshot still has the index from before the switch: the
      restart asks for the camera at the old index, not the one the index now points to. */
  lemma SwitchRestartAsksForPreviousCamera(s: Scanner, held: Closure, devices: Option<seq<Device>>, answers: Answers, video: bool)
    requires |s.cameras| > 1 && s.isScanning && s.currentCameraIndex < |s.cameras|
    requires SwitchMayHold(s, held)
    ensures var switched := SwitchCamera(s, held);
      && Stopped(switched.state)
      && switched.effects[|switched.effects| - 1] == ScheduleRestart(held)
      && Count(switched.effects, ScheduleRestart(held)) == 1
      && switched.state.currentCameraIndex != s.currentCameraIndex
      && StartScanning(switched.state, held, devices, answers, video).effects[1]
         == RequestStream(ExactDevice(held.cameras[s.currentCameraIndex].deviceId))
  {
    var switched := SwitchCamera(s, held);
    var stop := StopScanning(s);
    assert switched.effects == stop.effects + [ScheduleRestart(held)];
    assert multiset(stop.effects + [ScheduleRestart(held)])
        == multiset(stop.effects) + multiset{ScheduleRestart(held)};
    assert Count(stop.effects, ScheduleRestart(held)) == 0 by {
      NoneOf(stop.effects, ScheduleRestart(held));
    }
    assert Preferred(held) == ExactDevice(held.cameras[s.currentCameraIndex].deviceId);
  }

  /** `isPaused` is not among the switch handler's dependencies, so pausing keeps the
      handler of the running session, whose snapshot says not paused.  A switch after
      a pause therefore restarts a loop that decodes and keeps polling, while a
      handler from the paused render would restart one that never decodes. */
  lemma PausedSwitchRestartPolls(s: Scanner, held: Closure, t: Scanner, outcome: DecodeOutcome)
    requires |s.cameras| > 1 && s.isScanning && s.isPaused
    requires SwitchMayHold(s, held) && !held.isPaused
    requires t.readerExists && !IsHit(outcome)
    ensures SwitchMayHold(s, Capture(s)) && Capture(s).isPaused
    ensures SwitchCamera(s, held).effects[|SwitchCamera(s, held).effects| - 1] == ScheduleRestart(held)
    ensures Decodes(t, held, true) && ScheduleFrame(held) in ScanFrame(t, held, true, outcome).effects
    ensures !Decodes(t, Capture(s), true)
  {
  }

  // ---------------------------------------------------------------------------
  // Acquisition

  /** The first two requests are identical (the exact captured camera if the captured
      list has one at the captured index, otherwise the rear camera) and the third
      asks for any video input. */
  lemma FallbackChainShape(c: Closure)
    ensures Chain(c)[0] == Chain(c)[1] && Chain(c)[2] == AnyVideo
    ensures c.cameraIndex < |c.cameras| ==> Chain(c)[0] == ExactDevice(c.cameras[c.cameraIndex].deviceId)
    ensures c.cameraIndex >= |c.cameras| ==> Chain(c)[0] == FacingEnvironment
  {
  }

  /** When every request is refused, all three were made, in chain order, and the
      session shows the permission message instead of the camera. */
  lemma StartDenied(s: Scanner, c: Closure, devices: Option<seq<Device>>, video: bool)
    ensures var r := StartScanning(s, c, devices, Answers(false, false, false), video);
      && r.effects == [EnumerateDevices, RequestStream(Chain(c)[0]), RequestStream(Chain(c)[1]), RequestStream(AnyVideo)]
      && r.state.scanError == Some(CameraDeniedMessage) && !r.state.showCamera
      && r.state.streamHeld == s.streamHeld
  {
  }

  /** A granted request ends the chain; the video's metadata handler is installed
      with the closure `startScanning` ran from, and nothing held is released first. */
  lemma StartGranted(s: Scanner, c: Closure, devices: Option<seq<Device>>, answers: Answers, video: bool)
    requires answers.first || answers.second || answers.third
    ensures var r := StartScanning(s, c, devices, answers, video);
      && r.state.streamHeld && r.state.showCamera && r.state.scanError.None?
      && Count(r.effects, StopTracks) == 0
      && Count(r.effects, AwaitMetadata(c)) == (if video then 1 else 0)
      && r.state.isScanning == s.isScanning && r.state.isPaused == s.isPaused
  {
    var r := StartScanning(s, c, devices, answers, video);
    var (requested, granted) := Acquire(c, answers);
    var asked := [EnumerateDevices] + Requests(requested);
    assert Count(asked, StopTracks) == 0 && Count(asked, AwaitMetadata(c)) == 0 by {
      assert forall i :: 0 <= i < |asked| ==> asked[i].EnumerateDevices? || asked[i].RequestStream?;
      NoneOf(asked, StopTracks);
      NoneOf(asked, AwaitMetadata(c));
    }
    assert r.effects == asked + (if video then [AwaitMetadata(c)] else []);
  }

  lemma NoneOf(effects: seq<Effect>, e: Effect)
    requires forall i :: 0 <= i < |effects| ==> effects[i] != e
    ensures Count(effects, e) == 0
  {
    assert e !in effects;
  }

  // ---------------------------------------------------------------------------
  // The live scan loop

  /** A live hit reports its text once and then tears the session down. */
  lemma ScanFrameHit(s: Scanner, c: Closure, outcome: DecodeOutcome)
    requires Decodes(s, c, true) && IsHit(outcome)
    ensures var r := ScanFrame(s, c, true, outcome);
      && r.state == StopScanning(s).state && Stopped(r.state)
      && r.effects == [DecodeFrame, OnScan(outcome.text)] + StopScanning(s).effects
      && Count(r.effects, StopTracks) == (if s.streamHeld then 1 else 0)
  {
    StopCounts(s);
    var stop := StopScanning(s);
    assert multiset([DecodeFrame, OnScan(outcome.text)] + stop.effects)
        == multiset([DecodeFrame, OnScan(outcome.text)]) + multiset(stop.effects);
  }

  /** A miss or a decoder exception is swallowed: nothing is reported, no error is
      shown, and the next run is scheduled exactly when the captured flags say the
      session was scanning and not paused. */
  lemma ScanFrameMiss(s: Scanner, c: Closure, outcome: DecodeOutcome)
    requires Decodes(s, c, true) && !IsHit(outcome)
    ensures var r := ScanFrame(s, c, true, outcome);
      && r.state == s.(timerHeld := r.state.timerHeld)
      && (ScheduleFrame(c) in r.effects <==> c.isScanning && !c.isPaused)
      && r.effects == (if c.isScanning then [DecodeFrame, ScheduleFrame(c)] else [DecodeFrame])
  {
  }

  /** The teardown after a live hit schedules no further run. */
  lemma HitSchedulesNothing(s: Scanner, text: string, c: Closure)
    ensures ScheduleFrame(c) !in [DecodeFrame, OnScan(text)] + StopScanning(s).effects
  {
    var stop := StopScanning(s).effects;
    assert forall i :: 0 <= i < |stop| ==> IsRelease(stop[i]);
  }

  /** A closure captured while the session was not yet scanning (the one the camera
      button's `startScanning` runs from) never reschedules itself: however the
      decoder answers, the loop makes at most one decode attempt. */
  lemma StaleGuardStopsLoop(s: Scanner, c: Closure, outcomes: seq<DecodeOutcome>)
    requires !c.isScanning
    ensures Count(RunLoop(s, c, outcomes).effects, DecodeFrame) <= 1
  {
    if |outcomes| > 0 && Decodes(s, c, true) {
      if IsHit(outcomes[0]) {
        ScanFrameHit(s, c, outcomes[0]);
        HitSchedulesNothing(s, outcomes[0].text, c);
      } else {
        ScanFrameMiss(s, c, outcomes[0]);
      }
    }
  }

  /** One miss in a running loop: a decode attempt and the rescheduled timeout, then
      the rest of the loop. */
  lemma RunLoopMiss(s: Scanner, c: Closure, outcomes: seq<DecodeOutcome>)
    requires c.isScanning && !c.isPaused && s.readerExists
    requires |outcomes| > 0 && !IsHit(outcomes[0])
    ensures var rest := RunLoop(s.(timerHeld := true), c, outcomes[1..]);
      RunLoop(s, c, outcomes) == Step(rest.state, [DecodeFrame, ScheduleFrame(c)] + rest.effects)
  {
    ScanFrameMiss(s, c, outcomes[0]);
  }

  /** What a loop that ends in a hit adds up to: `decodes` decode attempts, one report
      and that of `text`, one release of the stream if one was held, and a torn-down
      session. */
  predicate EndsInHit(r: Step, decodes: nat, text: string, held: bool) {
    && Count(r.effects, DecodeFrame) == decodes
    && Reports(r.effects) == 1 && Count(r.effects, OnScan(text)) == 1
    && Count(r.effects, StopTracks) == (if held then 1 else 0)
    && Stopped(r.state)
  }

  /** A hit ends the loop at once. */
  lemma RunLoopHit(s: Scanner, c: Closure, text: string)
    requires !c.isPaused && s.readerExists && text != ""
    ensures EndsInHit(RunLoop(s, c, [Hit(text)]), 1, text, s.streamHeld)
  {
    ScanFrameHit(s, c, Hit(text));
    HitSchedulesNothing(s, text, c);
    assert RunLoop(s, c, [Hit(text)]) == ScanFrame(s, c, true, Hit(text));
    HitEndsLoop(s, text);
  }

  /** The step a live hit makes is a loop that ends in a hit. */
  lemma HitEndsLoop(s: Scanner, text: string)
    ensures EndsInHit(Step(StopScanning(s).state, [DecodeFrame, OnScan(text)] + StopScanning(s).effects),
                      1, text, s.streamHeld)
  {
    HitReportsOnce(s, text);
    StopCounts(s);
    var stop := StopScanning(s).effects;
    assert OnScan(text) !in multiset(stop) by {
      assert forall i :: 0 <= i < |stop| ==> IsRelease(stop[i]);
    }
    assert multiset([DecodeFrame, OnScan(text)] + stop) == multiset{DecodeFrame, OnScan(text)} + multiset(stop);
  }

  /** A miss in front of a loop that ends in a hit adds one decode attempt and nothing
      the host sees. */
  lemma MissBeforeHit(rest: Step, c: Closure, decodes: nat, text: string, held: bool)
    requires EndsInHit(rest, decodes, text, held)
    ensures EndsInHit(Step(rest.state, [DecodeFrame, ScheduleFrame(c)] + rest.effects), decodes + 1, text, held)
  {
    var head: seq<Effect> := [DecodeFrame, ScheduleFrame(c)];
    CountAppend(head, rest.effects, DecodeFrame);
    CountAppend(head, rest.effects, OnScan(text));
    CountAppend(head, rest.effects, StopTracks);
    ReportsAppend(head, rest.effects);
    assert Reports(head) == 0 by { assert head[1..][1..] == []; }
  }

  /** A miss in front of a loop that ends in a hit, as `RunLoop` sees it. */
  lemma MissThenLoop(s: Scanner, c: Closure, outcomes: seq<DecodeOutcome>, decodes: nat, text: string)
    requires c.isScanning && !c.isPaused && s.readerExists
    requires |outcomes| > 0 && !IsHit(outcomes[0])
    requires EndsInHit(RunLoop(s.(timerHeld := true), c, outcomes[1..]), decodes, text, s.streamHeld)
    ensures EndsInHit(RunLoop(s, c, outcomes), decodes + 1, text, s.streamHeld)
  {
    RunLoopMiss(s, c, outcomes);
    MissBeforeHit(RunLoop(s.(timerHeld := true), c, outcomes[1..]), c, decodes, text, s.streamHeld);
  }

  /** With a closure that says scanning and not paused, a run of misses followed by a
      hit makes one decode attempt per answer, reports the hit's text and nothing
      else, releases a held stream exactly once and ends torn down. */
  lemma {:induction false} MissesThenHit(s: Scanner, c: Closure, misses: seq<DecodeOutcome>, text: string)
    requires c.isScanning && !c.isPaused && s.readerExists
    requires forall i :: 0 <= i < |misses| ==> !IsHit(misses[i])
    requires text != ""
    ensures EndsInHit(RunLoop(s, c, misses + [Hit(text)]), |misses| + 1, text, s.streamHeld)
    decreases |misses|
  {
    var outcomes := misses + [Hit(text)];
    if |misses| == 0 {
      assert outcomes == [Hit(text)];
      RunLoopHit(s, c, text);
    } else {
      assert outcomes[1..] == misses[1..] + [Hit(text)];
      MissesThenHit(s.(timerHeld := true), c, misses[1..], text);
      MissThenLoop(s, c, outcomes, |misses|, text);
    }
  }

  /** However the decoder answers, a loop makes at most one decode attempt per answer
      and reports at most one code: a hit schedules no further run. */
  lemma {:induction false} LoopBounds(s: Scanner, c: Closure, outcomes: seq<DecodeOutcome>)
    ensures Count(RunLoop(s, c, outcomes).effects, DecodeFrame) <= |outcomes|
    ensures Reports(RunLoop(s, c, outcomes).effects) <= 1
    decreases |outcomes|
  {
    if |outcomes| > 0 {
      var step := ScanFrame(s, c, true, outcomes[0]);
      FrameReportsAtMostOnce(s, c, true, outcomes[0]);
      if ScheduleFrame(c) in step.effects {
        if IsHit(outcomes[0]) {
          ScanFrameHit(s, c, outcomes[0]);
          HitSchedulesNothing(s, outcomes[0].text, c);
        }
        ScanFrameMiss(s, c, outcomes[0]);
        var rest := RunLoop(step.state, c, outcomes[1..]);
        LoopBounds(step.state, c, outcomes[1..]);
        CountAppend(step.effects, rest.effects, DecodeFrame);
        ReportsAppend(step.effects, rest.effects);
        assert Reports(step.effects) == 0 by { assert step.effects[1..][1..] == []; }
      }
    }
  }

  // ---------------------------------------------------------------------------
  // Pause and resume

  /** Pausing and then resuming brings the session back with no frozen frame and no
      error, the stream still held, and the scan loop no longer running: neither
      click decodes a frame or schedules one. */
  lemma PauseThenResume(s: Scanner, surfaces: Surfaces, frame: string, o1: DecodeOutcome, o2: DecodeOutcome)
    requires surfaces.video && surfaces.canvas && !s.isPaused
    ensures var paused := TogglePausePlay(s, surfaces, frame, o1);
      var resumed := TogglePausePlay(paused.state, surfaces, frame, o2);
      && !resumed.state.isPaused && resumed.state.frozenImage.None? && resumed.state.scanError.None?
      && resumed.state.streamHeld == s.streamHeld && resumed.state.isScanning == s.isScanning
      && !resumed.state.timerHeld
      && Count(paused.effects + resumed.effects, DecodeFrame) == 0
      && resumed.effects == []
  {
    var paused := TogglePausePlay(s, surfaces, frame, o1);
    assert multiset(paused.effects + []) == multiset(paused.effects);
  }

  // ---------------------------------------------------------------------------
  // Still images

  /** A `.heic` upload that converts is decoded under its `.jpg` name as a JPEG and, when
      a code is found in it, reports that code once and nothing else; a conversion
      failure ends the handler silently. */
  lemma HeicUpload(s: Scanner, f: File, blob: Blob, still: StillOutcome)
    requires IsHeicName(f.name)
    ensures var r := HandleFileUpload(s, Some(f), Some(blob), still);
      && r.effects[1].DecodeStill?
      && r.effects[1].file.name == f.name[..|f.name| - |HeicExtension|] + JpegExtension
      && r.effects[1].file.mimeType == JpegType
      && !IsHeicName(r.effects[1].file.name)
    ensures still.Decoded? ==>
      var r := HandleFileUpload(s, Some(f), Some(blob), still);
      && r.state == s
      && r.effects == [ConvertHeic(f), r.effects[1], OnScan(still.text)]
      && Count(r.effects, OnScan(still.text)) == 1 && Reports(r.effects) == 1
    ensures HandleFileUpload(s, Some(f), None, still) == Step(s, [ConvertHeic(f)])
  {
    RenamedHeicIsJpeg(f.name);
  }

  /** Every failed still-image decode, uploaded or captured, shows the same message. */
  lemma StillFailureMessage(s: Scanner, f: File, converted: Option<Blob>, blob: Blob)
    requires !IsHeicName(f.name) || converted.Some?
    ensures HandleFileUpload(s, Some(f), converted, NotDecoded).state.scanError == Some(NoBarcodeMessage)
    ensures CaptureDecoded(s, Some(blob), NotDecoded).state.scanError == Some(NoBarcodeMessage)
  {
  }

  // ---------------------------------------------------------------------------
  // The component as a whole

  /** A frozen frame is only ever shown while paused. */
  predicate FrozenOnlyWhilePaused(s: Scanner) {
    s.frozenImage.Some? ==> s.isPaused
  }

  lemma ApplyKeepsFrozenInvariant(s: Scanner, e: Event)
    requires FrozenOnlyWhilePaused(s)
    ensures FrozenOnlyWhilePaused(Apply(s, e).state)
  {
    match e
    case Typed(text) =>
    case Submitted =>
    case StopClicked =>
    case SwitchClicked(held) => SwitchKeepsFrozen(s, held);
    case StartRan(c, devices, answers, video) => StartKeepsFrozen(s, c, devices, answers, video);
    case MetadataReady(c, video, outcome) =>
      FrameKeepsFrozen(s.(isScanning := true, readerExists := true), c, video, outcome);
    case FrameTimerFired(c, video, outcome) => FrameKeepsFrozen(s, c, video, outcome);
    case PauseClicked(surfaces, frame, outcome) => ToggleKeepsFrozen(s, surfaces, frame, outcome);
    case BlobReady(blob, still) =>
    case FileChosen(file, converted, still) =>
  }

  lemma SwitchKeepsFrozen(s: Scanner, held: Closure)
    requires FrozenOnlyWhilePaused(s)
    ensures FrozenOnlyWhilePaused(SwitchCamera(s, held).state)
  {
  }

  lemma StartKeepsFrozen(s: Scanner, c: Closure, devices: Option<seq<Device>>, answers: Answers, video: bool)
    requires FrozenOnlyWhilePaused(s)
    ensures FrozenOnlyWhilePaused(StartScanning(s, c, devices, answers, video).state)
  {
  }

  lemma FrameKeepsFrozen(s: Scanner, c: Closure, video: bool, outcome: DecodeOutcome)
    requires FrozenOnlyWhilePaused(s)
    ensures FrozenOnlyWhilePaused(ScanFrame(s, c, video, outcome).state)
  {
  }

  lemma ToggleKeepsFrozen(s: Scanner, surfaces: Surfaces, frame: string, outcome: DecodeOutcome)
    requires FrozenOnlyWhilePaused(s)
    ensures FrozenOnlyWhilePaused(TogglePausePlay(s, surfaces, frame, outcome).state)
  {
  }

  lemma {:induction false} RunKeepsFrozenInvariant(s: Scanner, events: seq<Event>)
    requires FrozenOnlyWhilePaused(s)
    ensures FrozenOnlyWhilePaused(Run(s, events).state)
    decreases |events|
  {
    if |events| > 0 {
      ApplyKeepsFrozenInvariant(s, events[0]);
      RunKeepsFrozenInvariant(Apply(s, events[0]).state, events[1..]);
    }
  }

  /** The component starts with a frozen frame only while paused, so the invariant
      holds after any sequence of events from mount. */
  lemma FromMount(events: seq<Event>)
    ensures Stopped(Initial) && FrozenOnlyWhilePaused(Initial)
    ensures FrozenOnlyWhilePaused(Run(Initial, events).state)
  {
    RunKeepsFrozenInvariant(Initial, events);
  }

  /** Running two sequences of events one after the other is running their
      concatenation: the final state of the first is where the second starts, and
      the calls are made in order. */
  lemma {:induction false} RunAppend(s: Scanner, a: seq<Event>, b: seq<Event>)
    ensures var first := Run(s, a);
      var second := Run(first.state, b);
      Run(s, a + b) == Step(second.state, first.effects + second.effects)
    decreases |a|
  {
    if |a| == 0 {
      assert a + b == b;
    } else {
      assert (a + b)[0] == a[0] && (a + b)[1..] == a[1..] + b;
      var head := Apply(s, a[0]);
      RunAppend(head.state, a[1..], b);
      var tail := Run(head.state, a[1..]);
      var second := Run(tail.state, b);
      assert head.effects + (tail.effects + second.effects) == (head.effects + tail.effects) + second.effects;
    }
  }

  /** `n` events report at most `n` codes. */
  lemma {:induction false} RunReportsAtMostOncePerEvent(s: Scanner, events: seq<Event>)
    ensures Reports(Run(s, events).effects) <= |events|
    decreases |events|
  {
    if |events| > 0 {
      var head := Apply(s, events[0]);
      EventReportsAtMostOnce(s, events[0]);
      RunReportsAtMostOncePerEvent(head.state, events[1..]);
      ReportsAppend(head.effects, Run(head.state, events[1..]).effects);
    }
  }

  // ---------------------------------------------------------------------------
  // Buttons

  /** While scanning, the camera button is a stop button that ends the session, and
      the upload and search buttons are disabled; while loading, every button is
      disabled. */
  lemma ButtonsWhileScanning(s: Scanner, isLoading: bool, devices: Option<seq<Device>>, answers: Answers, video: bool)
    ensures s.isScanning ==> UploadDisabled(s, isLoading) && SearchDisabled(s, isLoading)
    ensures s.isScanning ==> LiveButtonAction(s) == StopAction && Stopped(PressLiveButton(s, devices, answers, video).state)
    ensures !s.isScanning ==> LiveButtonAction(s) == StartAction && (UploadDisabled(s, isLoading) <==> isLoading)
    ensures isLoading ==> LiveButtonDisabled(isLoading) && UploadDisabled(s, isLoading) && SearchDisabled(s, isLoading)
    ensures !isLoading ==> !LiveButtonDisabled(isLoading)
  {
  }

  // ---------------------------------------------------------------------------
  // Enumeration

  /** `getCameras` keeps the enumeration order: the video inputs of two lists in a
      row are those of the first followed by those of the second. */
  lemma VideoInputsKeepOrder(a: seq<Device>, b: seq<Device>)
    ensures VideoInputs(a + b) == VideoInputs(a) + VideoInputs(b)
  {
    FilterAppend(IsVideoInput, a, b);
  }

  /** No single event reports more than one code to the host. */
  lemma EventReportsAtMostOnce(s: Scanner, e: Event)
    ensures Reports(Apply(s, e).effects) <= 1
  {
    match e
    case Typed(text) =>
    case Submitted =>
    case StopClicked => StopReportsNothing(s);
    case SwitchClicked(held) => SwitchReportsNothing(s, held);
    case StartRan(c, devices, answers, video) => StartReportsNothing(s, c, devices, answers, video);
    case MetadataReady(c, video, outcome) =>
      FrameReportsAtMostOnce(s.(isScanning := true, readerExists := true), c, video, outcome);
    case FrameTimerFired(c, video, outcome) => FrameReportsAtMostOnce(s, c, video, outcome);
    case PauseClicked(surfaces, frame, outcome) => ToggleReportsAtMostOnce(s, surfaces, frame, outcome);
    case BlobReady(blob, still) => CaptureReportsAtMostOnce(s, blob, still);
    case FileChosen(file, converted, still) => UploadReportsAtMostOnce(s, file, converted, still);
  }

  lemma StopReportsNothing(s: Scanner)
    ensures Reports(StopScanning(s).effects) == 0
  {
    ReleasesReportNothing(StopScanning(s).effects);
  }

  lemma SwitchReportsNothing(s: Scanner, held: Closure)
    ensures Reports(SwitchCamera(s, held).effects) == 0
  {
    if |s.cameras| > 1 && s.isScanning {
      StopReportsNothing(s);
      ReportsAppend(StopScanning(s).effects, [ScheduleRestart(held)]);
    }
  }

  lemma ToggleReportsAtMostOnce(s: Scanner, surfaces: Surfaces, frame: string, outcome: DecodeOutcome)
    ensures Reports(TogglePausePlay(s, surfaces, frame, outcome).effects) <= 1
  {
    if surfaces.video && surfaces.canvas && !s.isPaused {
      var cleared: seq<Effect> := if s.timerHeld then [ClearTimer] else [];
      ReleasesReportNothing(cleared);
      ReportsAppend(cleared, [CaptureBlob]);
    }
  }

  lemma StillReportsAtMostOnce(s: Scanner, f: File, still: StillOutcome)
    ensures Reports(ScanStill(s, f, still).effects) <= 1
  {
    var effects := ScanStill(s, f, still).effects;
    if still.Decoded? {
      assert effects[1..][1..] == [];
      assert Reports(effects[1..]) == 1 + Reports(effects[1..][1..]);
    } else {
      assert effects[1..] == [];
    }
  }

  lemma CaptureReportsAtMostOnce(s: Scanner, blob: Option<Blob>, still: StillOutcome)
    ensures Reports(CaptureDecoded(s, blob, still).effects) <= 1
  {
    if blob.Some? {
      StillReportsAtMostOnce(s, File(CapturedName, JpegType, blob.value), still);
    }
  }

  lemma UploadReportsAtMostOnce(s: Scanner, file: Option<File>, converted: Option<Blob>, still: StillOutcome)
    ensures Reports(HandleFileUpload(s, file, converted, still).effects) <= 1
  {
    if file.Some? {
      var f := file.value;
      if IsHeicName(f.name) {
        if converted.Some? {
          var jpeg := File(ReplaceHeicSuffix(f.name), JpegType, converted.value);
          StillReportsAtMostOnce(s, jpeg, still);
          ReportsAppend([ConvertHeic(f)], ScanStill(s, jpeg, still).effects);
        }
      } else {
        StillReportsAtMostOnce(s, f, still);
      }
    }
  }

  lemma FrameReportsAtMostOnce(s: Scanner, c: Closure, video: bool, outcome: DecodeOutcome)
    ensures Reports(ScanFrame(s, c, video, outcome).effects) <= 1
  {
    if Decodes(s, c, video) {
      if IsHit(outcome) {
        ScanFrameHit(s, c, outcome);
        HitReportsOnce(s, outcome.text);
      } else {
        ScanFrameMiss(s, c, outcome);
        var effects := ScanFrame(s, c, video, outcome).effects;
        assert Reports(effects) == Reports(effects[1..]);
        if c.isScanning {
          assert effects[1..][1..] == [];
          assert Reports(effects[1..]) == Reports(effects[1..][1..]);
        } else {
          assert effects[1..] == [];
        }
      }
    }
  }

  lemma StartReportsNothing(s: Scanner, c: Closure, devices: Option<seq<Device>>, answers: Answers, video: bool)
    ensures Reports(StartScanning(s, c, devices, answers, video).effects) == 0
  {
    var effects := StartScanning(s, c, devices, answers, video).effects;
    forall i | 0 <= i < |effects| ensures !effects[i].OnScan? {
    }
    NoReports(effects);
  }

  lemma {:induction false} NoReports(effects: seq<Effect>)
    requires NoOnScan(effects)
    ensures Reports(effects) == 0
    decreases |effects|
  {
    if |effects| > 0 {
      NoReports(effects[1..]);
    }
  }
}

=== FILE: home_page.dfy ===
/** The lookup page of `app/page.tsx`: four pieces of state around one product
    lookup, and the conditions that decide which panels are on screen.  The lookup
    itself (`getProductByGTIN`) is a network call; only its outcome enters here. */
module HomePage {
  import opened Wrappers
  import opened Text
  import opened ProductTypes
  import ProductDetails

  datatype Page = Page(
    products: Response,
    loading: bool,
    error: Option<string>,
    lastScannedGtin: string)

  const Initial: Page := Page([], false, None, "")

  /** What the lookup's promise rejects with: an `Error` carrying a message, or any
      other thrown value. */
  datatype LookupError = ErrorWithMessage(message: string) | NonError

  type LookupOutcome = Result<Response, LookupError>

  const DefaultError := "Failed to fetch product information"

  /** The rejection `getProductByGTIN` produces for a non-2xx HTTP status. */
  function StatusError(status: int): (r: LookupError)
    ensures r.ErrorWithMessage? && |r.message| > |StatusPrefix|
    ensures r.message[..|StatusPrefix|] == StatusPrefix
  {
    ErrorWithMessage(StatusPrefix + DecimalText(status))
  }

  const StatusPrefix := "API error: "

  /** Different HTTP statuses give different error messages. */
  lemma StatusErrorInjective(a: int, b: int)
    requires StatusError(a) == StatusError(b)
    ensures a == b
  {
    var m := StatusError(a).message;
    assert m[|StatusPrefix|..] == DecimalText(a);
    assert StatusError(b).message[|StatusPrefix|..] == DecimalText(b);
    DecimalTextInjective(a, b);
  }

  /** A string state read as a JavaScript condition: `null` and `""` are false. */
  predicate Truthy(s: Option<string>) {
    s.Some? && s.value != ""
  }

  /** The synchronous part of `handleScan`, before the lookup is awaited. */
  function BeginScan(p: Page, gtin: string): (r: Page)
    ensures r.loading && r.error.None? && r.lastScannedGtin == gtin
    ensures r.products == p.products
  {
    p.(loading := true, error := None, lastScannedGtin := gtin)
  }

  /** The message the page shows for a failed lookup. */
  function ErrorMessage(e: LookupError): string {
    match e
    case ErrorWithMessage(m) => m
    case NonError => DefaultError
  }

  /** The rest of `handleScan` once the lookup settles: the `try`, `catch` and `finally`. */
  function FinishScan(p: Page, outcome: LookupOutcome): (r: Page)
    ensures !r.loading
    ensures r.lastScannedGtin == p.lastScannedGtin
    ensures outcome.Ok? ==> r.products == outcome.value && r.error == p.error
    ensures outcome.Err? ==> r.products == [] && r.error == Some(ErrorMessage(outcome.error))
  {
    match outcome
    case Ok(response) => p.(products := response, loading := false)
    case Err(e) => p.(error := Some(ErrorMessage(e)), products := [], loading := false)
  }

  /** `handleScan(gtin)` run to completion with the lookup's outcome. */
  function HandleScan(p: Page, gtin: string, outcome: LookupOutcome): (r: Page)
    ensures r.lastScannedGtin == gtin && !r.loading
    ensures outcome.Ok? ==> r.products == outcome.value && r.error.None?
    ensures outcome.Err? ==> r.products == [] && r.error == Some(ErrorMessage(outcome.error))
  {
    FinishScan(BeginScan(p, gtin), outcome)
  }

  /** `handleRescan`: nothing without a previous GTIN, otherwise the same lookup again. */
  function HandleRescan(p: Page, outcome: LookupOutcome): (r: Page)
    ensures p.lastScannedGtin == "" ==> r == p
    ensures p.lastScannedGtin != "" ==> r == HandleScan(p, p.lastScannedGtin, outcome)
  {
    if p.lastScannedGtin != "" then HandleScan(p, p.lastScannedGtin, outcome) else p
  }

  /** Which panels are on screen. */
  datatype Panels = Panels(
    spinner: bool,
    errorAlert: bool,
    retryButton: bool,
    productDetails: bool,
    noProductsFound: bool)

  function Visible(p: Page): (r: Panels)
    ensures r.spinner <==> p.loading
    ensures r.errorAlert <==> Truthy(p.error)
    ensures r.retryButton <==> Truthy(p.error) && p.lastScannedGtin != ""
    ensures r.noProductsFound <==> !p.loading && !Truthy(p.error) && |p.products| == 0 && p.lastScannedGtin != ""
    ensures !(r.productDetails && r.noProductsFound)
    ensures r.noProductsFound ==> !p.loading && !Truthy(p.error) && p.lastScannedGtin != ""
    ensures r.retryButton ==> r.errorAlert
    ensures r.productDetails <==> |p.products| > 0
  {
    Panels(
      p.loading,
      Truthy(p.error),
      Truthy(p.error) && p.lastScannedGtin != "",
      |p.products| > 0,
      !p.loading && !Truthy(p.error) && |p.products| == 0 && p.lastScannedGtin != "")
  }

  /** Before the first lookup the page shows no panel at all, and retry does nothing. */
  lemma InitialShowsNothing(outcome: LookupOutcome)
    ensures Visible(Initial) == Panels(false, false, false, false, false)
    ensures HandleRescan(Initial, outcome) == Initial
  {
  }

  /** A failed HTTP status always reaches the screen: the alert shows its message
      together with the retry button. */
  lemma StatusErrorShowsAlert(p: Page, gtin: string, status: int)
    requires gtin != ""
    ensures var q := HandleScan(p, gtin, Err(StatusError(status)));
      q.error == Some(StatusError(status).message) && Visible(q).errorAlert && Visible(q).retryButton
  {
  }

  /** The page's state after a completed lookup depends only on the GTIN and the
      outcome, so a retry that meets the same outcome reproduces the same page. */
  lemma ScanDependsOnlyOnGtinAndOutcome(p: Page, q: Page, gtin: string, outcome: LookupOutcome)
    ensures HandleScan(p, gtin, outcome) == HandleScan(q, gtin, outcome)
  {
  }

  lemma RescanRepeatsLastScan(p: Page, gtin: string, outcome: LookupOutcome)
    requires gtin != ""
    ensures HandleRescan(HandleScan(p, gtin, outcome), outcome) == HandleScan(p, gtin, outcome)
  {
    ScanDependsOnlyOnGtinAndOutcome(HandleScan(p, gtin, outcome), p, gtin, outcome);
  }

  /** While a lookup is in flight the previous products stay on screen next to the
      spinner, and no error is shown. */
  lemma StaleProductsDuringLookup(p: Page, gtin: string)
    ensures Visible(BeginScan(p, gtin)).spinner
    ensures Visible(BeginScan(p, gtin)).productDetails == (|p.products| > 0)
    ensures !Visible(BeginScan(p, gtin)).errorAlert && !Visible(BeginScan(p, gtin)).noProductsFound
  {
  }

  /** After a completed lookup for a non-empty GTIN exactly one of the error alert,
      the product details and the "No products found" panel is shown.  A rejection
      with an empty message hides the alert and shows "No products found" instead. */
  lemma OnePanelAfterLookup(p: Page, gtin: string, outcome: LookupOutcome)
    requires gtin != ""
    ensures var v := Visible(HandleScan(p, gtin, outcome));
      && !v.spinner
      && (if v.errorAlert then 1 else 0) + (if v.productDetails then 1 else 0) + (if v.noProductsFound then 1 else 0) == 1
    ensures outcome.Err? && ErrorMessage(outcome.error) == "" ==> Visible(HandleScan(p, gtin, outcome)).noProductsFound
  {
  }

  /** Which panel a completed lookup shows: the cards for a non-empty response, "No
      products found" for an empty one or for a rejection with an empty message, and
      the alert with its retry button for a rejection with a message. */
  lemma PanelForOutcome(p: Page, gtin: string, outcome: LookupOutcome)
    requires gtin != ""
    ensures var v := Visible(HandleScan(p, gtin, outcome));
      && (outcome.Ok? && |outcome.value| > 0 ==> v.productDetails)
      && (outcome.Ok? && |outcome.value| == 0 ==> v.noProductsFound)
      && (outcome.Err? && ErrorMessage(outcome.error) == "" ==> v.noProductsFound)
      && (outcome.Err? && ErrorMessage(outcome.error) != "" ==> v.errorAlert && v.retryButton)
  {
  }

  /** The product panel is shown only for a non-empty response, so the cards
      component never reaches its own "No products found" card from this page. */
  lemma ProductPanelHasCards(p: Page, selected: map<string, nat>, expanded: map<string, bool>)
    requires Visible(p).productDetails
    ensures ProductDetails.RenderProducts(p.products, selected, expanded).StoreCards?
  {
  }
}

=== FILE: json_viewer.dfy ===
/** The JSON pretty-printer of `JsonViewer.tsx`, as a serializer into a stream of
    display tokens.  Each `<span>` the component emits becomes a literal, key,
    separator or bracket token, and the indented `<div>` that holds the children of
    a non-empty container becomes a `Block` bracket pair. */
module JsonViewer {
  import opened Wrappers
  import Text

  /** A JSON value; an object is the list of its own entries in `Object.keys` order. */
  datatype Json =
    | JNull
    | JBool(b: bool)
    | JNumber(n: int)
    | JString(s: string)
    | JArray(items: seq<Json>)
    | JObject(members: seq<Member>)

  datatype Member = Member(key: string, value: Json)

  /** `Square` is `[ ]`, `Curly` is `{ }`, `Block` is the indented children `<div>`. */
  datatype Bracket = Square | Curly | Block

  datatype Token =
    | NullLit
    | BoolLit(b: bool)
    | NumberLit(n: int)
    | StringLit(s: string)
    | Key(k: string)
    | Colon
    | Comma
    | Open(br: Bracket)
    | Close(br: Bracket)

  /** The text a token shows on screen. */
  function Display(t: Token): string {
    match t
    case NullLit => "null"
    case BoolLit(b) => if b then "true" else "false"
    case NumberLit(n) => Text.DecimalText(n)
    case StringLit(s) => s
    case Key(k) => k
    case Colon => ": "
    case Comma => ","
    case Open(br) => if br == Square then "[" else if br == Curly then "{" else ""
    case Close(br) => if br == Square then "]" else if br == Curly then "}" else ""
  }

  function DisplayAll(ts: seq<Token>): string {
    if |ts| == 0 then "" else Display(ts[0]) + DisplayAll(ts[1..])
  }

  /** `renderValue`: scalars become one literal; containers become their brackets,
      with the children block only when they have children. */
  function Render(v: Json): seq<Token>
    decreases v, 1
  {
    match v
    case JNull => [NullLit]
    case JBool(b) => [BoolLit(b)]
    case JNumber(n) => [NumberLit(n)]
    case JString(s) => [StringLit(s)]
    case JArray(items) =>
      if |items| == 0 then [Open(Square), Close(Square)]
      else [Open(Square), Open(Block)] + RenderItems(items) + [Close(Block), Close(Square)]
    case JObject(members) =>
      if |members| == 0 then [Open(Curly), Close(Curly)]
      else [Open(Curly), Open(Block)] + RenderMembers(members) + [Close(Block), Close(Curly)]
  }

  /** The array rows: each item, followed by a comma unless it is the last. */
  function RenderItems(items: seq<Json>): seq<Token>
    decreases items, 0
  {
    if |items| == 0 then []
    else Render(items[0]) + (if |items| > 1 then [Comma] else []) + RenderItems(items[1..])
  }

  /** The object rows: key, `: `, value, and a comma unless it is the last entry. */
  function RenderMembers(members: seq<Member>): seq<Token>
    decreases members, 0
  {
    if |members| == 0 then []
    else
      [Key(members[0].key), Colon] + Render(members[0].value)
      + (if |members| > 1 then [Comma] else []) + RenderMembers(members[1..])
  }

  // ---------------------------------------------------------------------------
  // Bracket nesting

  /** Runs a bracket stack over `ts`: the final stack, or `None` at a closing
      bracket that does not match the innermost open one. */
  function Nest(ts: seq<Token>, stack: seq<Bracket>): Option<seq<Bracket>>
    decreases |ts|
  {
    if |ts| == 0 then Some(stack)
    else match ts[0]
      case Open(br) => Nest(ts[1..], [br] + stack)
      case Close(br) =>
        if |stack| > 0 && stack[0] == br then Nest(ts[1..], stack[1..]) else None
      case _ => Nest(ts[1..], stack)
  }

  /** Every bracket is closed by a bracket of the same kind, innermost first. */
  predicate WellNested(ts: seq<Token>) {
    Nest(ts, []) == Some([])
  }

  lemma {:induction false} NestAppend(a: seq<Token>, b: seq<Token>, stack: seq<Bracket>)
    ensures Nest(a + b, stack) == (match Nest(a, stack) case None => None case Some(st) => Nest(b, st))
    decreases |a|
  {
    if |a| > 0 {
      assert (a + b)[1..] == a[1..] + b;
      match a[0]
      case Open(br) => NestAppend(a[1..], b, [br] + stack);
      case Close(br) =>
        if |stack| > 0 && stack[0] == br { NestAppend(a[1..], b, stack[1..]); }
      case _ => NestAppend(a[1..], b, stack);
    } else {
      assert a + b == b;
    }
  }

  /** A nesting of the opening pair, `inner`, and the closing pair. */
  lemma WrapNests(o: Bracket, inner: seq<Token>, stack: seq<Bracket>)
    requires Nest(inner, [Block, o] + stack) == Some([Block, o] + stack)
    ensures Nest([Open(o), Open(Block)] + inner + [Close(Block), Close(o)], stack) == Some(stack)
  {
    var pre: seq<Token> := [Open(o), Open(Block)];
    var post: seq<Token> := [Close(Block), Close(o)];
    var inside := [Block, o] + stack;
    NestAppend(pre + inner, post, stack);
    NestAppend(pre, inner, stack);
    assert Nest(pre, stack) == Some(inside) by {
      assert [Block] + ([o] + stack) == inside;
      assert Nest(pre[1..][1..], inside) == Some(inside);
      assert Nest(pre[1..], [o] + stack) == Some(inside);
    }
    assert Nest(post, inside) == Some(stack) by {
      assert inside[1..] == [o] + stack;
      assert ([o] + stack)[1..] == stack;
      assert Nest(post[1..][1..], stack) == Some(stack);
      assert Nest(post[1..], [o] + stack) == Some(stack);
    }
  }

  lemma EmptyPairNests(o: Bracket, stack: seq<Bracket>)
    ensures Nest([Open(o), Close(o)], stack) == Some(stack)
  {
    var ts: seq<Token> := [Open(o), Close(o)];
    assert ([o] + stack)[1..] == stack;
    assert Nest(ts[1..][1..], stack) == Some(stack);
  }

  /** The rendering of any value leaves the bracket stack as it found it. */
  lemma {:induction false} RenderNests(v: Json, stack: seq<Bracket>)
    ensures Nest(Render(v), stack) == Some(stack)
    decreases v, 1
  {
    match v
    case JArray(items) =>
      if |items| > 0 {
        ItemsNest(items, [Block, Square] + stack);
        WrapNests(Square, RenderItems(items), stack);
      } else {
        EmptyPairNests(Square, stack);
      }
    case JObject(members) =>
      if |members| > 0 {
        MembersNest(members, [Block, Curly] + stack);
        WrapNests(Curly, RenderMembers(members), stack);
      } else {
        EmptyPairNests(Curly, stack);
      }
    case _ =>
  }

  lemma {:induction false} ItemsNest(items: seq<Json>, stack: seq<Bracket>)
    ensures Nest(RenderItems(items), stack) == Some(stack)
    decreases items, 0
  {
    if |items| > 0 {
      var head := Render(items[0]);
      var sep: seq<Token> := if |items| > 1 then [Comma] else [];
      RenderNests(items[0], stack);
      ItemsNest(items[1..], stack);
      NestAppend(head + sep, RenderItems(items[1..]), stack);
      NestAppend(head, sep, stack);
      if |items| > 1 { assert sep[1..] == []; }
    }
  }

  lemma {:induction false} MembersNest(members: seq<Member>, stack: seq<Bracket>)
    ensures Nest(RenderMembers(members), stack) == Some(stack)
    decreases members, 0
  {
    if |members| > 0 {
      var m := members[0];
      var keyPart: seq<Token> := [Key(m.key), Colon];
      var sep: seq<Token> := if |members| > 1 then [Comma] else [];
      RenderNests(m.value, stack);
      MembersNest(members[1..], stack);
      NestAppend(keyPart + Render(m.value) + sep, RenderMembers(members[1..]), stack);
      NestAppend(keyPart + Render(m.value), sep, stack);
      NestAppend(keyPart, Render(m.value), stack);
      assert keyPart[1..][1..] == [];
      if |members| > 1 { assert sep[1..] == []; }
    }
  }

  /** The brackets of every rendering are balanced and properly nested. */
  lemma RenderWellNested(v: Json)
    ensures WellNested(Render(v))
  {
    RenderNests(v, []);
  }

  // ---------------------------------------------------------------------------
  // Separators

  /** The number of commas in `ts` that stand outside every bracket, reading `ts`
      from nesting depth `depth`. */
  function TopLevelCommas(ts: seq<Token>, depth: nat): nat
    decreases |ts|
  {
    if |ts| == 0 then 0
    else match ts[0]
      case Comma => (if depth == 0 then 1 else 0) + TopLevelCommas(ts[1..], depth)
      case Open(_) => TopLevelCommas(ts[1..], depth + 1)
      case Close(_) => TopLevelCommas(ts[1..], if depth == 0 then 0 else depth - 1)
      case _ => TopLevelCommas(ts[1..], depth)
  }

  /** A rendering contributes no comma at the depth it starts from: all of its own
      commas are inside its brackets. */
  lemma {:induction false} RenderHidesCommas(v: Json, rest: seq<Token>, depth: nat)
    ensures TopLevelCommas(Render(v) + rest, depth) == TopLevelCommas(rest, depth)
    decreases v, 1
  {
    match v
    case JArray(items) =>
      if |items| > 0 {
        WrappedHidesCommas(Square, RenderItems(items), rest, depth);
        ItemsHideCommas(items, [Close(Block), Close(Square)] + rest, depth + 2);
      } else {
        assert (Render(v) + rest)[1..][1..] == rest;
      }
    case JObject(members) =>
      if |members| > 0 {
        WrappedHidesCommas(Curly, RenderMembers(members), rest, depth);
        MembersHideCommas(members, [Close(Block), Close(Curly)] + rest, depth + 2);
      } else {
        assert (Render(v) + rest)[1..][1..] == rest;
      }
    case _ =>
      assert (Render(v) + rest)[1..] == rest;
  }

  lemma WrappedHidesCommas(o: Bracket, inner: seq<Token>, rest: seq<Token>, depth: nat)
    ensures TopLevelCommas([Open(o), Open(Block)] + inner + [Close(Block), Close(o)] + rest, depth)
         == TopLevelCommas(inner + ([Close(Block), Close(o)] + rest), depth + 2)
    ensures TopLevelCommas([Close(Block), Close(o)] + rest, depth + 2) == TopLevelCommas(rest, depth)
  {
    var ts := [Open(o), Open(Block)] + inner + [Close(Block), Close(o)] + rest;
    assert ts[1..][1..] == inner + ([Close(Block), Close(o)] + rest);
    var tail := [Close(Block), Close(o)] + rest;
    assert tail[1..][1..] == rest;
  }

  lemma {:induction false} ItemsHideCommas(items: seq<Json>, tail: seq<Token>, depth: nat)
    requires depth >= 1
    ensures TopLevelCommas(RenderItems(items) + tail, depth) == TopLevelCommas(tail, depth)
    decreases items, 0
  {
    if |items| > 0 {
      var sep: seq<Token> := if |items| > 1 then [Comma] else [];
      var after := RenderItems(items[1..]) + tail;
      assert RenderItems(items) + tail == Render(items[0]) + (sep + after);
      RenderHidesCommas(items[0], sep + after, depth);
      if |items| > 1 { assert (sep + after)[1..] == after; } else { assert sep + after == after; }
      ItemsHideCommas(items[1..], tail, depth);
    } else {
      assert RenderItems(items) + tail == tail;
    }
  }

  lemma {:induction false} MembersHideCommas(members: seq<Member>, tail: seq<Token>, depth: nat)
    requires depth >= 1
    ensures TopLevelCommas(RenderMembers(members) + tail, depth) == TopLevelCommas(tail, depth)
    decreases members, 0
  {
    if |members| > 0 {
      var m := members[0];
      var sep: seq<Token> := if |members| > 1 then [Comma] else [];
      var after := RenderMembers(members[1..]) + tail;
      var ts := RenderMembers(members) + tail;
      assert ts == [Key(m.key), Colon] + (Render(m.value) + (sep + after));
      assert ts[1..][1..] == Render(m.value) + (sep + after);
      RenderHidesCommas(m.value, sep + after, depth);
      if |members| > 1 { assert (sep + after)[1..] == after; } else { assert sep + after == after; }
      MembersHideCommas(members[1..], tail, depth);
    } else {
      assert RenderMembers(members) + tail == tail;
    }
  }

  /** The rows of a non-empty array carry exactly one separating comma fewer than
      there are items. */
  lemma {:induction false} ItemSeparators(items: seq<Json>)
    requires |items| > 0
    ensures TopLevelCommas(RenderItems(items), 0) == |items| - 1
    decreases items
  {
    var rest := RenderItems(items[1..]);
    if |items| > 1 {
      assert RenderItems(items) == Render(items[0]) + ([Comma] + rest);
      RenderHidesCommas(items[0], [Comma] + rest, 0);
      assert ([Comma] + rest)[1..] == rest;
      ItemSeparators(items[1..]);
    } else {
      assert RenderItems(items) == Render(items[0]) + [];
      RenderHidesCommas(items[0], [], 0);
    }
  }

  /** The rows of a non-empty object carry exactly one separating comma fewer than
      there are entries. */
  lemma {:induction false} MemberSeparators(members: seq<Member>)
    requires |members| > 0
    ensures TopLevelCommas(RenderMembers(members), 0) == |members| - 1
    decreases members
  {
    var m := members[0];
    var rest := RenderMembers(members[1..]);
    var ts := RenderMembers(members);
    if |members| > 1 {
      assert ts == [Key(m.key), Colon] + (Render(m.value) + ([Comma] + rest));
      assert ts[1..][1..] == Render(m.value) + ([Comma] + rest);
      RenderHidesCommas(m.value, [Comma] + rest, 0);
      assert ([Comma] + rest)[1..] == rest;
      MemberSeparators(members[1..]);
    } else {
      assert ts == [Key(m.key), Colon] + (Render(m.value) + []);
      assert ts[1..][1..] == Render(m.value) + [];
      RenderHidesCommas(m.value, [], 0);
    }
  }

  /** A rendering never ends with a comma: the separator follows every item but the last. */
  lemma {:induction false} RenderEndsWithoutComma(v: Json)
    ensures |Render(v)| > 0 && Render(v)[|Render(v)| - 1] != Comma
  {
  }

  lemma {:induction false} ItemsEndWithoutComma(items: seq<Json>)
    requires |items| > 0
    ensures |RenderItems(items)| > 0 && RenderItems(items)[|RenderItems(items)| - 1] != Comma
    decreases items
  {
    if |items| > 1 {
      ItemsEndWithoutComma(items[1..]);
      assert RenderItems(items) == Render(items[0]) + [Comma] + RenderItems(items[1..]);
    } else {
      assert items[1..] == [];
      assert RenderItems(items) == Render(items[0]);
      RenderEndsWithoutComma(items[0]);
    }
  }

  /** A non-empty array renders as `[`, the indented block of its items with
      `|items| - 1` separating commas and none after the last item, then `]`. */
  lemma ArrayLayout(items: seq<Json>)
    requires |items| > 0
    ensures Render(JArray(items)) == [Open(Square), Open(Block)] + RenderItems(items) + [Close(Block), Close(Square)]
    ensures TopLevelCommas(RenderItems(items), 0) == |items| - 1
    ensures |RenderItems(items)| > 0 && RenderItems(items)[|RenderItems(items)| - 1] != Comma
  {
    ItemSeparators(items);
    ItemsEndWithoutComma(items);
  }

  /** A non-empty object renders as `{`, one `key: value` row per entry in key order
      with `|members| - 1` separating commas, then `}`. */
  lemma ObjectLayout(members: seq<Member>)
    requires |members| > 0
    ensures Render(JObject(members)) == [Open(Curly), Open(Block)] + RenderMembers(members) + [Close(Block), Close(Curly)]
    ensures RenderMembers(members)[..2] == [Key(members[0].key), Colon]
    ensures TopLevelCommas(RenderMembers(members), 0) == |members| - 1
  {
    MemberSeparators(members);
  }

  /** Literals show as `null`, `true`/`false` and the string itself; an empty
      container shows only its bracket pair, with no children block. */
  lemma LiteralText(b: bool, s: string)
    ensures DisplayAll(Render(JNull)) == "null"
    ensures DisplayAll(Render(JBool(b))) == (if b then "true" else "false")
    ensures DisplayAll(Render(JString(s))) == s
    ensures Render(JArray([])) == [Open(Square), Close(Square)] && DisplayAll(Render(JArray([]))) == "[]"
    ensures Render(JObject([])) == [Open(Curly), Close(Curly)] && DisplayAll(Render(JObject([]))) == "{}"
  {
    var a := Render(JArray([]));
    assert DisplayAll(a) == "[" + DisplayAll(a[1..]);
    var o := Render(JObject([]));
    assert DisplayAll(o) == "{" + DisplayAll(o[1..]);
  }

  // ---------------------------------------------------------------------------
  // Reading a rendering back

  /** Reads one value from the front of a token stream: the inverse of `Render`. */
  function ParseValue(ts: seq<Token>): (r: Option<(Json, seq<Token>)>)
    ensures r.Some? ==> |r.value.1| < |ts|
    decreases |ts|, 1
  {
    if |ts| == 0 then None
    else match ts[0]
      case NullLit => Some((JNull, ts[1..]))
      case BoolLit(b) => Some((JBool(b), ts[1..]))
      case NumberLit(n) => Some((JNumber(n), ts[1..]))
      case StringLit(s) => Some((JString(s), ts[1..]))
      case Open(br) =>
        if |ts| < 2 then None
        else if br == Square && ts[1] == Close(Square) then Some((JArray([]), ts[2..]))
        else if br == Curly && ts[1] == Close(Curly) then Some((JObject([]), ts[2..]))
        else if br == Square && ts[1] == Open(Block) then
          match ParseItems(ts[2..])
          case None => None
          case Some((items, rest)) =>
            if |rest| >= 2 && rest[0] == Close(Block) && rest[1] == Close(Square)
            then Some((JArray(items), rest[2..])) else None
        else if br == Curly && ts[1] == Open(Block) then
          match ParseMembers(ts[2..])
          case None => None
          case Some((members, rest)) =>
            if |rest| >= 2 && rest[0] == Close(Block) && rest[1] == Close(Curly)
            then Some((JObject(members), rest[2..])) else None
        else None
      case _ => None
  }

  /** Reads comma-separated values. */
  function ParseItems(ts: seq<Token>): (r: Option<(seq<Json>, seq<Token>)>)
    ensures r.Some? ==> |r.value.1| < |ts|
    decreases |ts|, 2
  {
    match ParseValue(ts)
    case None => None
    case Some((v, rest)) =>
      if |rest| > 0 && rest[0] == Comma then
        match ParseItems(rest[1..])
        case None => None
        case Some((vs, rest')) => Some(([v] + vs, rest'))
      else Some(([v], rest))
  }

  /** Reads comma-separated `key: value` rows. */
  function ParseMembers(ts: seq<Token>): (r: Option<(seq<Member>, seq<Token>)>)
    ensures r.Some? ==> |r.value.1| < |ts|
    decreases |ts|, 2
  {
    if |ts| < 2 || !ts[0].Key? || ts[1] != Colon then None
    else match ParseValue(ts[2..])
      case None => None
      case Some((v, rest)) =>
        var m := Member(ts[0].k, v);
        if |rest| > 0 && rest[0] == Comma then
          match ParseMembers(rest[1..])
          case None => None
          case Some((ms, rest')) => Some(([m] + ms, rest'))
        else Some(([m], rest))
  }

  /** Reading back any rendering yields the value rendered, whatever follows it: the
      token stream keeps every item, key and value, in order. */
  lemma {:induction false} ParseRender(v: Json, rest: seq<Token>)
    ensures ParseValue(Render(v) + rest) == Some((v, rest))
    decreases v, 1
  {
    match v
    case JArray(items) => ParseRenderArray(items, rest);
    case JObject(members) => ParseRenderObject(members, rest);
    case _ =>
      assert (Render(v) + rest)[1..] == rest;
  }

  lemma {:induction false} ParseRenderArray(items: seq<Json>, rest: seq<Token>)
    ensures ParseValue(Render(JArray(items)) + rest) == Some((JArray(items), rest))
    decreases items, 2
  {
    if |items| == 0 {
      assert (Render(JArray(items)) + rest)[2..] == rest;
    } else {
      var closing := [Close(Block), Close(Square)] + rest;
      ParseRenderItems(items, closing);
      ParseArrayBody(items, RenderItems(items), rest);
      assert Render(JArray(items)) + rest == [Open(Square), Open(Block)] + RenderItems(items) + closing;
    }
  }

  lemma {:induction false} ParseRenderObject(members: seq<Member>, rest: seq<Token>)
    ensures ParseValue(Render(JObject(members)) + rest) == Some((JObject(members), rest))
    decreases members, 2
  {
    if |members| == 0 {
      assert (Render(JObject(members)) + rest)[2..] == rest;
    } else {
      var closing := [Close(Block), Close(Curly)] + rest;
      ParseRenderMembers(members, closing);
      ParseObjectBody(members, RenderMembers(members), rest);
      assert Render(JObject(members)) + rest == [Open(Curly), Open(Block)] + RenderMembers(members) + closing;
    }
  }

  /** An indented array block reads back as the array its rows read as. */
  lemma ParseArrayBody(items: seq<Json>, body: seq<Token>, rest: seq<Token>)
    requires ParseItems(body + ([Close(Block), Close(Square)] + rest)) == Some((items, [Close(Block), Close(Square)] + rest))
    ensures ParseValue([Open(Square), Open(Block)] + body + ([Close(Block), Close(Square)] + rest)) == Some((JArray(items), rest))
  {
    var ts := [Open(Square), Open(Block)] + body + ([Close(Block), Close(Square)] + rest);
    assert ts[2..] == body + ([Close(Block), Close(Square)] + rest);
    assert ([Close(Block), Close(Square)] + rest)[2..] == rest;
  }

  /** An indented object block reads back as the object its rows read as. */
  lemma ParseObjectBody(members: seq<Member>, body: seq<Token>, rest: seq<Token>)
    requires ParseMembers(body + ([Close(Block), Close(Curly)] + rest)) == Some((members, [Close(Block), Close(Curly)] + rest))
    ensures ParseValue([Open(Curly), Open(Block)] + body + ([Close(Block), Close(Curly)] + rest)) == Some((JObject(members), rest))
  {
    var ts := [Open(Curly), Open(Block)] + body + ([Close(Block), Close(Curly)] + rest);
    assert ts[2..] == body + ([Close(Block), Close(Curly)] + rest);
    assert ([Close(Block), Close(Curly)] + rest)[2..] == rest;
  }

  lemma {:induction false} ParseRenderItems(items: seq<Json>, rest: seq<Token>)
    requires |items| > 0
    requires |rest| == 0 || rest[0] != Comma
    ensures ParseItems(RenderItems(items) + rest) == Some((items, rest))
    decreases items, 0
  {
    if |items| > 1 {
      var after := RenderItems(items[1..]) + rest;
      assert RenderItems(items) + rest == Render(items[0]) + ([Comma] + after);
      ParseRender(items[0], [Comma] + after);
      assert ([Comma] + after)[1..] == after;
      ParseRenderItems(items[1..], rest);
      assert [items[0]] + items[1..] == items;
    } else {
      assert items[1..] == [];
      assert RenderItems(items) + rest == Render(items[0]) + rest;
      ParseRender(items[0], rest);
      assert [items[0]] == items;
    }
  }

  lemma {:induction false} ParseRenderMembers(members: seq<Member>, rest: seq<Token>)
    requires |members| > 0
    requires |rest| == 0 || rest[0] != Comma
    ensures ParseMembers(RenderMembers(members) + rest) == Some((members, rest))
    decreases members, 0
  {
    var m := members[0];
    if |members| > 1 {
      var after := RenderMembers(members[1..]) + rest;
      assert RenderMembers(members) + rest == [Key(m.key), Colon] + Render(m.value) + [Comma] + after;
      ParseRenderMembers(members[1..], rest);
      ParseMemberThenMore(m, members[1..], after, rest);
      assert [m] + members[1..] == members;
    } else {
      assert members[1..] == [];
      assert RenderMembers(members) == [Key(m.key), Colon] + Render(m.value);
      ParseRenderLastMember(m, rest);
      assert [m] == members;
    }
  }

  /** A member followed by a comma reads back in front of whatever the rest reads as. */
  lemma ParseMemberThenMore(m: Member, more: seq<Member>, after: seq<Token>, rest: seq<Token>)
    requires ParseMembers(after) == Some((more, rest))
    ensures ParseMembers([Key(m.key), Colon] + Render(m.value) + [Comma] + after) == Some(([m] + more, rest))
  {
    var ts := [Key(m.key), Colon] + Render(m.value) + [Comma] + after;
    assert ts[2..] == Render(m.value) + ([Comma] + after);
    ParseRender(m.value, [Comma] + after);
    assert ([Comma] + after)[1..] == after;
  }

  /** The last member of an object reads back on its own. */
  lemma {:induction false} ParseRenderLastMember(m: Member, rest: seq<Token>)
    requires |rest| == 0 || rest[0] != Comma
    ensures ParseMembers([Key(m.key), Colon] + Render(m.value) + rest) == Some(([m], rest))
    decreases m, 0
  {
    ParseRender(m.value, rest);
    var body := Render(m.value) + rest;
    assert [Key(m.key), Colon] + Render(m.value) + rest == [Key(m.key), Colon] + body;
    assert ([Key(m.key), Colon] + body)[2..] == body;
  }

  /** Distinct values never render alike. */
  lemma RenderInjective(a: Json, b: Json)
    requires Render(a) == Render(b)
    ensures a == b
  {
    ParseRender(a, []);
    ParseRender(b, []);
    assert Render(a) + [] == Render(b) + [];
  }
}

=== FILE: product_details.dfy ===
/** The per-store product cards of `ProductDetails.tsx`: the image filter, the main
    image and thumbnail strip, the category cap, and the two pieces of card state,
    the selected image per store and the expanded promotion panels. */
module ProductDetails {
  import opened Wrappers
  import opened Text
  import opened ProductTypes
  import opened Seqs
  import JsonViewer

  // ---------------------------------------------------------------------------
  // Images

  /** The filter test of `getValidImages`: a non-empty entry that is not blank. */
  predicate IsValidImage(img: string) {
    img != "" && Trim(img) != ""
  }

  /** `getValidImages`: the valid entries in order; an absent list yields none. */
  function ValidImages(images: Option<seq<string>>): (r: seq<string>)
    ensures images.None? ==> r == []
    ensures images.Some? ==> r == Filter(IsValidImage, images.value)
  {
    match images
    case None => []
    case Some(list) => Filter(IsValidImage, list)
  }

  /** Filtering twice is filtering once. */
  lemma ValidImagesIdempotent(images: Option<seq<string>>)
    ensures ValidImages(Some(ValidImages(images))) == ValidImages(images)
  {
    var valid := ValidImages(images);
    assert forall i :: 0 <= i < |valid| ==> valid[i] in valid;
    FilterKeepsAll(IsValidImage, valid);
  }

  /** What the image column shows: nothing without valid images, otherwise the
      image at the selected index; an index past the list gives an `undefined` source. */
  datatype MainImage = NoMainImage | MainImage(src: Option<string>)

  /** `selectedImage[store] || 0`. */
  function SelectedIndex(selected: map<string, nat>, store: string): (r: nat)
    ensures store !in selected ==> r == 0
    ensures store in selected ==> r == selected[store]
  {
    if store in selected then selected[store] else 0
  }

  function ShowMainImage(valid: seq<string>, selected: map<string, nat>, store: string): (r: MainImage)
    ensures r == NoMainImage <==> |valid| == 0
    ensures r.MainImage? && r.src.Some? ==> r.src.value in valid
    ensures |valid| > 0 && store !in selected ==> r == MainImage(Some(valid[0]))
    ensures |valid| > 0 && store in selected && selected[store] < |valid| ==> r == MainImage(Some(valid[selected[store]]))
    ensures |valid| > 0 && store in selected && selected[store] >= |valid| ==> r == MainImage(None)
  {
    if |valid| == 0 then NoMainImage
    else
      var i := SelectedIndex(selected, store);
      MainImage(if i < |valid| then Some(valid[i]) else None)
  }

  /** A thumbnail click: `selectedImage[store] := index`, nothing else. */
  function SelectImage(selected: map<string, nat>, store: string, index: nat): (r: map<string, nat>)
    ensures r.Keys == selected.Keys + {store}
    ensures SelectedIndex(r, store) == index
    ensures forall s :: s != store ==> SelectedIndex(r, s) == SelectedIndex(selected, s)
  {
    selected[store := index]
  }

  /** Clicking thumbnail `index` of a store makes that image the store's main image. */
  lemma ClickedThumbnailBecomesMain(valid: seq<string>, selected: map<string, nat>, store: string, index: nat)
    requires index < |valid|
    ensures ShowMainImage(valid, SelectImage(selected, store, index), store) == MainImage(Some(valid[index]))
  {
  }

  // ---------------------------------------------------------------------------
  // Categories

  const MaxCategories := 5

  /** `categories.slice(0, 5)` when the list is present and non-empty. */
  function ShownCategories(categories: Option<seq<string>>): (r: seq<string>)
    ensures |r| <= MaxCategories
    ensures categories.None? ==> r == []
    ensures categories.Some? ==> r <= categories.value
    ensures categories.Some? ==> |r| == if |categories.value| < MaxCategories then |categories.value| else MaxCategories
  {
    match categories
    case None => []
    case Some(list) =>
      if |list| > 0 then (if |list| <= MaxCategories then list else list[..MaxCategories]) else []
  }

  // ---------------------------------------------------------------------------
  // Promotion panels

  /** The `${store}-promo` key of a store's promotion panel. */
  function PromoKey(store: string): string {
    store + "-promo"
  }

  /** Different stores never share a panel key. */
  lemma PromoKeyInjective(a: string, b: string)
    requires PromoKey(a) == PromoKey(b)
    ensures a == b
  {
    assert a == PromoKey(a)[..|a|];
    assert b == PromoKey(b)[..|b|];
  }

  /** `expandedPromos[key]` read as a boolean: an absent key is collapsed. */
  predicate IsExpanded(expanded: map<string, bool>, key: string) {
    key in expanded && expanded[key]
  }

  /** The chevron click: `{ ...prev, [key]: !prev[key] }`. */
  function TogglePromotions(expanded: map<string, bool>, store: string): (r: map<string, bool>)
    ensures IsExpanded(r, PromoKey(store)) == !IsExpanded(expanded, PromoKey(store))
    ensures r.Keys == expanded.Keys + {PromoKey(store)}
    ensures forall k :: k in expanded && k != PromoKey(store) ==> r[k] == expanded[k]
  {
    var key := PromoKey(store);
    expanded[key := !IsExpanded(expanded, key)]
  }

  /** Toggling one store's panel leaves every other store's panel as it was. */
  lemma ToggleLeavesOtherStores(expanded: map<string, bool>, store: string, other: string)
    requires other != store
    ensures IsExpanded(TogglePromotions(expanded, store), PromoKey(other)) == IsExpanded(expanded, PromoKey(other))
  {
    if PromoKey(other) == PromoKey(store) {
      PromoKeyInjective(other, store);
    }
  }

  /** Toggling twice restores what every panel shows; the map itself is restored
      exactly when the key was already present (an absent key comes back as `false`). */
  lemma ToggleTwice(expanded: map<string, bool>, store: string)
    ensures forall k :: IsExpanded(TogglePromotions(TogglePromotions(expanded, store), store), k) == IsExpanded(expanded, k)
    ensures PromoKey(store) in expanded <==> TogglePromotions(TogglePromotions(expanded, store), store) == expanded
  {
    var twice := TogglePromotions(TogglePromotions(expanded, store), store);
    if PromoKey(store) !in expanded {
      assert PromoKey(store) in twice;
    }
  }

  // ---------------------------------------------------------------------------
  // Cards

  datatype PromoContent = PromoLine(text: string) | PromoJson(tokens: seq<JsonViewer.Token>)

  datatype PromoPanel = NoPromotions | Collapsed | Expanded(items: seq<PromoContent>)

  /** What one store's card shows.  `title` is the store name before upper-casing. */
  datatype Card = Card(
    store: string,
    title: string,
    mainImage: MainImage,
    thumbnails: seq<string>,
    highlighted: nat,
    categories: seq<string>,
    promotions: PromoPanel)

  datatype View = NoProductsFound | StoreCards(cards: seq<Card>)

  /** A text promotion shows as its text; any other promotion goes through the JSON
      viewer, whose rendering is well nested and reads back as the promotion's data. */
  function ShowPromotion(p: Promotion): (r: PromoContent)
    ensures p.PromoText? ==> r == PromoLine(p.text)
    ensures p.PromoObject? ==> r.PromoJson? && JsonViewer.WellNested(r.tokens)
    ensures p.PromoObject? ==> JsonViewer.ParseValue(r.tokens) == Some((p.data, []))
  {
    match p
    case PromoText(t) => PromoLine(t)
    case PromoObject(data) =>
      var tokens := JsonViewer.Render(data);
      JsonViewer.RenderWellNested(data);
      JsonViewer.ParseRender(data, []);
      assert tokens + [] == tokens;
      PromoJson(tokens)
  }

  function PromotionPanel(promotions: Option<seq<Promotion>>, expanded: map<string, bool>, store: string): (r: PromoPanel)
    ensures r == NoPromotions <==> promotions.None? || |promotions.value| == 0
    ensures r.Expanded? <==> r != NoPromotions && IsExpanded(expanded, PromoKey(store))
    ensures r.Expanded? ==> |r.items| == |promotions.value|
    ensures r.Expanded? ==> forall i :: 0 <= i < |r.items| ==> r.items[i] == ShowPromotion(promotions.value[i])
  {
    match promotions
    case None => NoPromotions
    case Some(list) =>
      if |list| == 0 then NoPromotions
      else if IsExpanded(expanded, PromoKey(store)) then
        Expanded(seq(|list|, i requires 0 <= i < |list| => ShowPromotion(list[i])))
      else Collapsed
  }

  /** One store's card. */
  function RenderCard(store: string, product: Product, selected: map<string, nat>, expanded: map<string, bool>): (r: Card)
    ensures r.store == store
    ensures r.mainImage == NoMainImage <==> ValidImages(product.images) == []
    ensures r.mainImage == ShowMainImage(ValidImages(product.images), selected, store)
    ensures |r.thumbnails| > 0 <==> |ValidImages(product.images)| > 1
    ensures forall i :: 0 <= i < |r.thumbnails| ==> IsValidImage(r.thumbnails[i])
    ensures |ValidImages(product.images)| > 1 ==> r.thumbnails == ValidImages(product.images)
    ensures r.highlighted == SelectedIndex(selected, store)
    ensures |r.categories| <= MaxCategories && r.categories == ShownCategories(product.categories)
    ensures r.promotions == PromotionPanel(product.promotions, expanded, store)
    ensures product.store != "" ==> r.title == product.store
    ensures product.store == "" ==> r.title == store
  {
    var valid := ValidImages(product.images);
    Card(
      store,
      if product.store != "" then product.store else store,
      ShowMainImage(valid, selected, store),
      if |valid| > 1 then valid else [],
      SelectedIndex(selected, store),
      ShownCategories(product.categories),
      PromotionPanel(product.promotions, expanded, store))
  }

  /** The whole component: the "No products found" card for an empty response,
      otherwise one card per store in response order. */
  function RenderProducts(products: Response, selected: map<string, nat>, expanded: map<string, bool>): (r: View)
    ensures r == NoProductsFound <==> |products| == 0
    ensures r.StoreCards? ==> |r.cards| == |products|
    ensures r.StoreCards? ==> forall i :: 0 <= i < |products| ==> r.cards[i].store == products[i].0
    ensures r.StoreCards? ==> forall i :: 0 <= i < |products| ==>
              r.cards[i] == RenderCard(products[i].0, products[i].1, selected, expanded)
    ensures r.StoreCards? ==> forall i :: 0 <= i < |products| ==>
              (r.cards[i].mainImage == NoMainImage <==> ValidImages(products[i].1.images) == [])
              && r.cards[i].categories == ShownCategories(products[i].1.categories)
              && r.cards[i].promotions == PromotionPanel(products[i].1.promotions, expanded, products[i].0)
  {
    if |products| == 0 then NoProductsFound
    else StoreCards(seq(|products|, i requires 0 <= i < |products| => RenderCard(products[i].0, products[i].1, selected, expanded)))
  }
}

=== FILE: product_types.dfy ===
/** The shapes of `types.ts`: one store's product record and the lookup response,
    restricted to the fields the modelled components read. */
module ProductTypes {
  import opened Wrappers
  import JsonViewer

  /** A promotion is either plain text or a structured JSON object. */
  datatype Promotion = PromoText(text: string) | PromoObject(data: JsonViewer.Json)

  /** `ProductData`; the list-valued fields are optional because the card guards
      each of them before use. */
  datatype Product = Product(
    store: string,
    gtin: string,
    name: string,
    brand: string,
    url: string,
    categories: Option<seq<string>>,
    images: Option<seq<string>>,
    promotions: Option<seq<Promotion>>)

  predicate DistinctStores(entries: seq<(string, Product)>) {
    forall i, j :: 0 <= i < j < |entries| ==> entries[i].0 != entries[j].0
  }

  /** `GTINResponse`: the response object's `(store, product)` entries in
      `Object.entries` order; an object has no repeated keys. */
  type Response = entries: seq<(string, Product)> | DistinctStores(entries)
}

=== FILE: seqs.dfy ===
/** Order-preserving filtering of a list, as `Array.prototype.filter` does it. */
module Seqs {

  /** `list.filter(keep)`: the entries `keep` accepts, in their original order. */
  function Filter<T(!new)>(keep: T -> bool, list: seq<T>): (r: seq<T>)
    ensures |r| <= |list|
    ensures forall x :: x in r <==> x in list && keep(x)
    ensures forall x :: multiset(r)[x] == if keep(x) then multiset(list)[x] else 0
  {
    if |list| == 0 then []
    else
      var rest := Filter(keep, list[1..]);
      assert list == [list[0]] + list[1..];
      assert multiset(list) == multiset{list[0]} + multiset(list[1..]);
      if keep(list[0]) then
        assert multiset([list[0]] + rest) == multiset{list[0]} + multiset(rest);
        [list[0]] + rest
      else rest
  }

  /** Filtering distributes over concatenation, so it keeps the relative order of
      the entries it retains. */
  lemma {:induction false} FilterAppend<T(!new)>(keep: T -> bool, a: seq<T>, b: seq<T>)
    ensures Filter(keep, a + b) == Filter(keep, a) + Filter(keep, b)
    decreases |a|
  {
    if |a| == 0 {
      assert a + b == b;
    } else {
      assert (a + b)[0] == a[0] && (a + b)[1..] == a[1..] + b;
      FilterAppend(keep, a[1..], b);
      if keep(a[0]) {
        assert [a[0]] + (Filter(keep, a[1..]) + Filter(keep, b))
            == ([a[0]] + Filter(keep, a[1..])) + Filter(keep, b);
      }
    }
  }

  /** A list whose every entry is accepted is its own filter. */
  lemma {:induction false} FilterKeepsAll<T(!new)>(keep: T -> bool, list: seq<T>)
    requires forall i :: 0 <= i < |list| ==> keep(list[i])
    ensures Filter(keep, list) == list
    decreases |list|
  {
    if |list| > 0 {
      FilterKeepsAll(keep, list[1..]);
      assert [list[0]] + list[1..] == list;
    }
  }
}

=== FILE: text.dfy ===
/** The string operations the components rely on: ECMAScript `String.prototype.trim`,
    lower-casing for the `.heic` extension test, the `/\.heic$/i` rename, and the
    decimal rendering of integers used for numbers and HTTP status codes. */
module Text {

  /** The characters `trim()` removes: ECMAScript WhiteSpace and LineTerminator. */
  predicate IsJsWhitespace(c: char) {
    || c == '\t' || c == '\n' || c == '\U{000B}' || c == '\U{000C}' || c == '\r'
    || c == ' ' || c == '\U{00A0}' || c == '\U{1680}'
    || ('\U{2000}' <= c <= '\U{200A}')
    || c == '\U{2028}' || c == '\U{2029}' || c == '\U{202F}' || c == '\U{205F}'
    || c == '\U{3000}' || c == '\U{FEFF}'
  }

  predicate AllWhitespace(s: string) {
    forall i :: 0 <= i < |s| ==> IsJsWhitespace(s[i])
  }

  /** `s` with its leading whitespace removed. */
  function TrimStart(s: string): (r: string)
    ensures |r| <= |s| && r == s[|s| - |r|..]
    ensures AllWhitespace(s[..|s| - |r|])
    ensures |r| > 0 ==> !IsJsWhitespace(r[0])
  {
    if |s| > 0 && IsJsWhitespace(s[0]) then
      var r := TrimStart(s[1..]);
      assert s[..|s| - |r|] == [s[0]] + s[1..][..|s[1..]| - |r|];
      r
    else s
  }

  /** `s` with its trailing whitespace removed. */
  function TrimEnd(s: string): (r: string)
    ensures |r| <= |s| && r == s[..|r|]
    ensures AllWhitespace(s[|r|..])
    ensures |r| > 0 ==> !IsJsWhitespace(r[|r| - 1])
  {
    if |s| > 0 && IsJsWhitespace(s[|s| - 1]) then
      var r := TrimEnd(s[..|s| - 1]);
      assert s[|r|..] == s[..|s| - 1][|r|..] + [s[|s| - 1]];
      r
    else s
  }

  /** ECMAScript `s.trim()`: the longest infix of `s` that neither starts nor ends
      with whitespace, obtained by dropping whitespace from both ends. */
  function Trim(s: string): (r: string)
    ensures |r| <= |s|
    ensures r == "" <==> AllWhitespace(s)
    ensures |r| > 0 ==> !IsJsWhitespace(r[0]) && !IsJsWhitespace(r[|r| - 1])
    ensures exists i :: StripsTo(s, i, r)
  {
    var t := TrimStart(s);
    var r := TrimEnd(t);
    TrimBothEnds(s, t, r);
    PrefixOfSuffix(s, t, r);
    r
  }

  /** `r` is what is left of `s` after dropping the first `i` characters and the
      characters after `r`, all of them whitespace. */
  predicate StripsTo(s: string, i: int, r: string) {
    && 0 <= i && i + |r| <= |s| && r == s[i..i + |r|]
    && AllWhitespace(s[..i]) && AllWhitespace(s[i + |r|..])
  }

  /** How the two one-sided trims combine: the result is empty exactly when every
      character of `s` is whitespace. */
  lemma TrimBothEnds(s: string, t: string, r: string)
    requires t == TrimStart(s) && r == TrimEnd(t)
    ensures r == "" <==> AllWhitespace(s)
  {
    if r == "" {
      assert AllWhitespace(t) by { assert t[|r|..] == t; }
      assert |t| == 0;
      assert s[..|s|] == s;
    }
    if AllWhitespace(s) {
      AllWhitespaceTrimsAway(s);
    }
  }

  /** A prefix of a suffix of `s` with whitespace cut off on both sides. */
  lemma PrefixOfSuffix(s: string, t: string, r: string)
    requires |t| <= |s| && t == s[|s| - |t|..] && AllWhitespace(s[..|s| - |t|])
    requires |r| <= |t| && r == t[..|r|] && AllWhitespace(t[|r|..])
    ensures StripsTo(s, |s| - |t|, r)
  {
    var i := |s| - |t|;
    assert s[i..i + |r|] == r;
    assert s[i + |r|..] == t[|r|..];
  }

  lemma {:induction false} AllWhitespaceTrimsAway(s: string)
    requires AllWhitespace(s)
    ensures TrimStart(s) == ""
    decreases |s|
  {
    if |s| > 0 {
      AllWhitespaceTrimsAway(s[1..]);
    }
  }

  /** Trimming an already trimmed string changes nothing. */
  lemma TrimIdempotent(s: string)
    ensures Trim(Trim(s)) == Trim(s)
  {
    var r := Trim(s);
    if |r| > 0 {
      assert TrimStart(r) == r;
      assert TrimEnd(r) == r;
    }
  }

  /** `trim()` is the longest infix of `s` with only whitespace around it: any
      non-blank infix that is surrounded by whitespace and neither starts nor ends
      with whitespace is the trimmed string. */
  lemma TrimIsTheStrippedInfix(s: string, i: int, r: string)
    requires StripsTo(s, i, r) && |r| > 0
    requires !IsJsWhitespace(r[0]) && !IsJsWhitespace(r[|r| - 1])
    ensures Trim(s) == r
  {
    Anchored(s, i, r);
    var t := Trim(s);
    assert !AllWhitespace(s);
    var j :| StripsTo(s, j, t);
    Anchored(s, j, t);
    assert i == j;
    assert i + |r| == j + |t|;
  }

  /** An infix with whitespace around it and none at its ends pins down where the
      whitespace stops on either side. */
  lemma Anchored(s: string, i: int, r: string)
    requires StripsTo(s, i, r) && |r| > 0
    requires !IsJsWhitespace(r[0]) && !IsJsWhitespace(r[|r| - 1])
    ensures !IsJsWhitespace(s[i]) && !IsJsWhitespace(s[i + |r| - 1])
    ensures forall k :: 0 <= k < i ==> IsJsWhitespace(s[k])
    ensures forall k :: i + |r| <= k < |s| ==> IsJsWhitespace(s[k])
  {
    assert s[i] == r[0] && s[i + |r| - 1] == r[|r| - 1];
    forall k | 0 <= k < i
      ensures IsJsWhitespace(s[k])
    {
      assert s[..i][k] == s[k];
    }
    forall k | i + |r| <= k < |s|
      ensures IsJsWhitespace(s[k])
    {
      assert s[i + |r|..][k - (i + |r|)] == s[k];
    }
  }

  /** ASCII lower-casing of one character. */
  function LowerAscii(c: char): (r: char)
    ensures 'A' <= c <= 'Z' ==> 'a' <= r <= 'z' && r as int - c as int == 32
    ensures !('A' <= c <= 'Z') ==> r == c
  {
    if 'A' <= c <= 'Z' then (c as int + 32) as char else c
  }

  /** `s.toLowerCase()`, restricted to the ASCII letters. */
  function ToLower(s: string): (r: string)
    ensures |r| == |s|
    ensures forall i :: 0 <= i < |s| ==> r[i] == LowerAscii(s[i])
  {
    seq(|s|, i requires 0 <= i < |s| => LowerAscii(s[i]))
  }

  predicate EndsWith(s: string, suffix: string) {
    |suffix| <= |s| && s[|s| - |suffix|..] == suffix
  }

  const HeicExtension := ".heic"
  const JpegExtension := ".jpg"

  /** `name.toLowerCase().endsWith('.heic')`: the test that sends an upload through conversion. */
  predicate IsHeicName(name: string) {
    EndsWith(ToLower(name), HeicExtension)
  }

  /** Whether the regular expression `/\.heic$/i` matches `name`: the last five
      characters equal `.heic` up to ASCII case. */
  predicate HeicSuffixMatches(name: string) {
    && |name| >= |HeicExtension|
    && forall k :: 0 <= k < |HeicExtension| ==>
         LowerAscii(name[|name| - |HeicExtension| + k]) == HeicExtension[k]
  }

  /** `name.replace(/\.heic$/i, '.jpg')`. */
  function ReplaceHeicSuffix(name: string): (r: string)
    ensures HeicSuffixMatches(name) ==>
              r == name[..|name| - |HeicExtension|] + JpegExtension && EndsWith(r, JpegExtension)
    ensures !HeicSuffixMatches(name) ==> r == name
  {
    if HeicSuffixMatches(name) then name[..|name| - |HeicExtension|] + JpegExtension else name
  }

  /** The lower-case extension test and the case-insensitive regular expression
      accept the same names, so every converted file is also renamed. */
  lemma HeicTestAgreesWithRename(name: string)
    ensures IsHeicName(name) <==> HeicSuffixMatches(name)
  {
    var n := |name|;
    if IsHeicName(name) {
      forall k | 0 <= k < |HeicExtension|
        ensures LowerAscii(name[n - |HeicExtension| + k]) == HeicExtension[k]
      {
        assert ToLower(name)[n - |HeicExtension|..][k] == HeicExtension[k];
      }
    }
    if HeicSuffixMatches(name) {
      assert ToLower(name)[n - |HeicExtension|..] == HeicExtension;
    }
  }

  /** A converted `.heic` upload is renamed to a `.jpg` name that keeps the stem and no
      longer triggers conversion. */
  lemma RenamedHeicIsJpeg(name: string)
    requires IsHeicName(name)
    ensures ReplaceHeicSuffix(name) == name[..|name| - |HeicExtension|] + JpegExtension
    ensures !IsHeicName(ReplaceHeicSuffix(name))
  {
    HeicTestAgreesWithRename(name);
    var r := ReplaceHeicSuffix(name);
    HeicTestAgreesWithRename(r);
    assert r[|r| - 1] == 'g';
    assert LowerAscii(r[|r| - 1]) != HeicExtension[4];
  }

  /** The decimal digits of a natural number, most significant first. */
  function Digits(n: nat): (r: string)
    ensures |r| >= 1
    ensures forall i :: 0 <= i < |r| ==> '0' <= r[i] <= '9'
    decreases n
  {
    var d := ['0' + (n % 10) as char];
    if n < 10 then d else Digits(n / 10) + d
  }

  /** The number a string of decimal digits denotes. */
  function DigitsValue(s: string): int {
    if |s| == 0 then 0 else DigitsValue(s[..|s| - 1]) * 10 + (s[|s| - 1] as int - '0' as int)
  }

  /** Reading the digits back gives the number, so distinct numbers print differently. */
  lemma {:induction false} DigitsRoundTrip(n: nat)
    ensures DigitsValue(Digits(n)) == n
    decreases n
  {
    var d := ['0' + (n % 10) as char];
    if n < 10 {
      assert Digits(n)[..0] == [];
    } else {
      DigitsRoundTrip(n / 10);
      assert (Digits(n / 10) + d)[..|Digits(n / 10) + d| - 1] == Digits(n / 10);
    }
  }

  /** The decimal digits of an integer, with a minus sign for negatives.  JavaScript
      renders an integer-valued number this way below 1e21 in magnitude. */
  function DecimalText(n: int): (r: string)
    ensures n < 0 <==> |r| > 0 && r[0] == '-'
  {
    if n < 0 then "-" + Digits(-n) else Digits(n)
  }

  lemma DigitsInjective(m: nat, n: nat)
    requires Digits(m) == Digits(n)
    ensures m == n
  {
    DigitsRoundTrip(m);
    DigitsRoundTrip(n);
  }

  /** Different status codes give different messages. */
  lemma DecimalTextInjective(a: int, b: int)
    requires DecimalText(a) == DecimalText(b)
    ensures a == b
  {
    if a < 0 {
      var da, db := Digits(-a), Digits(-b);
      assert ("-" + da)[1..] == da && ("-" + db)[1..] == db;
      DigitsInjective(-a, -b);
    } else {
      DigitsInjective(a, b);
    }
  }
}

=== FILE: wrappers.dfy ===
/** Optional values and success/failure results shared by the model's modules. */
module Wrappers {

  /** A value that may be absent: JavaScript's `undefined`/`null` versus a present value. */
  datatype Option<+T> = None | Some(value: T)

  /** The outcome of an operation that either produces a value or throws. */
  datatype Result<+T, +E> = Ok(value: T) | Err(error: E)
}
